=== FILE: README.md ===
# Kaggle extension core, modelled in Dafny

This project models the decision and shaping rules of a VS Code extension
for Kaggle. The extension is glue over three things: the editor API, the
`kaggle` command-line tool run as a child process, and Kaggle's REST API
reached through axios. The model lifts the pure rules out of that glue.
Each rule is a total function over plain inputs. Whatever the glue would
read from I/O (the secret store, environment variables, the tool's exit
code and output, HTTP responses, directory listings) is passed in as a
parameter.

Modules follow the source files:

- `CliCredentials`, `CliCsv`, `CliFetch`, `CliDispatch` model
  `src/kaggleCli.ts`. They cover credential resolution (`getKaggleCreds`),
  the two sign-in commands, the CSV-to-object conversion and the
  tool-then-API fallback of `listMyKernels`/`listDatasets`, and the legacy
  argument dispatcher `runKaggleCLI`.
- `KaggleApi` models `src/kaggleApi.ts`. It covers the second credential
  resolver `getKaggleCredentials`, request parameters, Basic-auth mapping,
  the files `pullKernel` writes, the preconditions and source-file choice
  of `pushKernel`, and the sequential loop of `downloadDatasetFiles`.
- `DatasetsProvider` and `MyNotebooksProvider` model the `getChildren`
  methods of the two tree views.
- `Outcomes`, `JsString`, `Records` and `Tokens` are shared vocabulary.
  `JsString` holds the JavaScript string primitives (`trim`, `split`,
  `join`, `startsWith`, `endsWith`, `toLowerCase`). `Records` holds objects
  as ordered property lists with JavaScript's assignment rule. `Tokens`
  holds token sources given as raw text plus the outcome of `JSON.parse`.

A thrown value is modelled as `Err` carrying the text JavaScript renders
for it (`${error}`). `new Error(m)` renders as `Error: m`, and that text is
what the extension wraps, rethrows or prints.

Facts about the code that the model keeps:

- The CSV output is split on every comma. Quoted fields are not
  interpreted.
- No `ref` column is required.
- A zero exit code with only a header line gives an empty list.
- When the API path fails, its own error is rethrown. No error combining
  both paths is built.
- `getKaggleCredentials` reads the environment first and the
  `kaggle.storedToken` configuration entry second. It copies fields
  without checking them, so a `KAGGLE_TOKEN_JSON` of `{}` hides a valid
  stored token (`KaggleApi.EmptyEnvTokenShadowsStored`).

Further behaviours that follow from the code as written:

- `pushKernel` compares extensions case-sensitively, so `nb.R` or
  `report.Rmd` are not source files.
- A reference without a slash gives an undefined slug. The archive of
  `downloadDataset` is then named `undefined.zip`.
- A dataset record without a `ref` property gets the address
  `https://www.kaggle.com/datasets/undefined`.
- `competitions submit` takes the argument right after the subcommand as
  the competition, even when it is a flag.

## Model

| member | source | states |
|---|---|---|
| `JsString.Trim` | src/kaggleCli.ts:225 | `trim()` returns one contiguous slice of the input. The slice neither starts nor ends with ECMAScript white space, and everything cut off on either side is white space. |
| `JsString.Split` | src/kaggleCli.ts:231-233 | `split(sep)` yields one piece more than the separator count, and no piece contains the separator. |
| `JsString.JoinSplit` | src/kaggleCli.ts:225 | Joining the pieces of a split with the separator restores the original string. |
| `JsString.SplitJoin` | src/kaggleCli.ts:233 | Splitting a join of separator-free pieces gives back exactly those pieces. |
| `JsString.JoinWith` | src/kaggleCli.ts:586 | `join` of no pieces is the empty string. Its contents are pinned by `JoinSplit`, `SplitJoin` and `JoinEnds`. |
| `JsString.JoinEnds` | src/kaggleCli.ts:586 | A join starts with its first piece and ends with its last. |
| `JsString.SplitSecond` | src/kaggleCli.ts:570 | When the separator occurs, the second piece of a split is the text between its first occurrence and the next one, or the end. The first piece is everything before the first occurrence. |
| `JsString.TrimPadded` | src/kaggleCli.ts:225 | `trim()` removes exactly the white space around a text whose own first and last characters are not white space. |
| `Records.Get` | src/kaggleCli.ts:236 | Reading a property is `undefined` exactly when no property has that name. |
| `Records.GetFirst` | src/kaggleCli.ts:236 | A present property reads as the value at its first occurrence; no earlier property has that name. |
| `Records.Assign` | src/kaggleCli.ts:236 | Assigning a property adds its name to the name set. A new name is appended at the end. Reassigning an existing name keeps every property in its place, names in the same order. Every property with another name is left as it was. |
| `Records.AssignGet` | src/kaggleCli.ts:236 | After an assignment, the assigned property reads back the new value. Every other property reads as before. |
| `Records.AssignStep` | src/kaggleCli.ts:234-237 | Over one assignment step, a property reads the assigned value when the step names it, and its earlier value otherwise. |
| `Records.AssignDistinct` | src/kaggleCli.ts:234-237 | Assignment never creates a duplicate property name. |
| `Records.DistinctGet` | src/kaggleCli.ts:236 | In an object without repeated names, every property reads back its own value. |
| `CliCredentials.GetKaggleCreds` | src/kaggleCli.ts:23-59 | Sources are tried in priority order: the secret store, then `KAGGLE_TOKEN_JSON`, then the `KAGGLE_USERNAME`/`KAGGLE_KEY` pair. The first usable source wins. A source that is empty, malformed or missing a field yields nothing. Resolution fails with the "No Kaggle token found" error exactly when no source is usable. A resolved pair is always non-empty. |
| `CliCredentials.SecretShadowsEnvironment` | src/kaggleCli.ts:27-31 | A usable stored secret decides the result, whatever the environment holds. |
| `CliCredentials.UnusableSourcesFallThrough` | src/kaggleCli.ts:32-46 | An unusable secret (malformed or missing a field) gives the same result as no secret. The same holds for `KAGGLE_TOKEN_JSON` once the secret yielded nothing. |
| `CliCredentials.Export` | src/kaggleCli.ts:200-206 | Exporting sets `KAGGLE_USERNAME`/`KAGGLE_KEY` to the resolved pair. Both JSON sources are left untouched. |
| `CliCredentials.ResolveAfterExport` | src/kaggleCli.ts:200-206 | Resolving again after exporting gives the same pair. |
| `CliCredentials.StoreApiTokenFromFile` | src/kaggleCli.ts:8-21 | A cancelled dialog changes nothing. A read error and a parse error propagate. A missing username or key fails with "Invalid kaggle.json". Otherwise the file text is stored verbatim. |
| `CliCredentials.FileSignInThenResolve` | src/kaggleCli.ts:8-31 | After signing in from a file, resolution returns the file's pair. |
| `CliCredentials.StoreApiTokenFromEnvOrPrompt` | src/kaggleCli.ts:65-96 | A usable `KAGGLE_TOKEN_JSON` is stored verbatim. Otherwise an empty or dismissed username, or key, fails with "Sign in canceled.". Otherwise the entered pair is stored. It always either stores a token or fails. |
| `CliCredentials.SignInThenResolve` | src/kaggleCli.ts:65-96 | After this sign-in, resolution returns the signed-in pair whatever the environment holds. |
| `CliCsv.BuildRecord` | src/kaggleCli.ts:234-238 | The object built from one data row never holds a property twice. |
| `CliCsv.BuildPrefixGet` | src/kaggleCli.ts:235-237 | In the object built from a row, each property holds the cell under the last header that lower-cases to its name. A name no header lower-cases to is undefined. |
| `CliCsv.BuildPrefixDistinct` | src/kaggleCli.ts:235-237 | The object built from a row never holds a property twice. |
| `CliCsv.RecordLookup` | src/kaggleCli.ts:231-238 | A row's object has property `name` exactly when some header lower-cases to `name`. It holds the cell under the last such header. |
| `CliCsv.BuildPrefixZip` | src/kaggleCli.ts:235-237 | With distinct lower-cased headers, the object lists each lower-cased header with its cell, in header order. |
| `CliCsv.Lines` | src/kaggleCli.ts:225 | The trimmed output splits into one line more than it has line feeds. No line contains a line feed. |
| `CliCsv.ParseListing` | src/kaggleCli.ts:225-239 | At most one line gives no records. Otherwise there is one record per line after the header. |
| `CliCsv.ListingRecord` | src/kaggleCli.ts:231-238 | Record `k` comes from line `k + 1`, keyed by the lower-cased header cells. Its values hold no comma and no line feed, and no property appears twice. |
| `CliCsv.CellInLine` | src/kaggleCli.ts:233 | A cell of a line holds no comma and no line feed. |
| `CliCsv.ListingRoundTrip` | src/kaggleCli.ts:225-239 | Parsing comma-joined rows under a header, with any white space before and after the text (such as the tool's final line feed), gives back one record per row, in order. Each record pairs the lower-cased header with the row's cell. |
| `CliFetch.FetchListing` | src/kaggleCli.ts:208-261 | The tool runs only when credentials resolve. A zero exit code returns the parsed CSV and sends no API request. A non-zero exit code sends the API request once and returns its records or its error. A credentials failure returns the "No Kaggle token found" error. |
| `CliFetch.ZeroExitIgnoresApi` | src/kaggleCli.ts:223-243 | With a zero exit code, the API's answer cannot affect the result. |
| `CliFetch.HeaderOnlyIsEmpty` | src/kaggleCli.ts:225-229 | Header-only (or empty) output from a zero exit gives an empty list and no API request. |
| `CliFetch.ListMyKernels` | src/kaggleCli.ts:208-256 | The tool runs with `kernels list --mine --csv --page-size 100`. The API fallback asks for `mine=true`, page 1, page size 100. |
| `CliFetch.DatasetsArgs` | src/kaggleCli.ts:354-357 | The argument list passed to `executeKaggleCLI` is `datasets list --csv`, plus `--search` and the term only for a non-empty term. |
| `CliFetch.ListDatasets` | src/kaggleCli.ts:345-394 | The tool runs only when credentials resolve, with the `datasets list` arguments for the term. A zero exit code returns the parsed CSV. A non-zero exit code sends the default-page request carrying the term, once, and returns its records or its error. The term is passed as `--search` and as `search` exactly when it is non-empty. |
| `CliFetch.SplitRef` | src/kaggleCli.ts:273 | `ref.split('/')` gives as owner the text before the first slash, or the whole reference when there is none. The slug is undefined exactly when there is no slash; otherwise it is the text between the first slash and the next slash or the end. Neither part contains a slash. |
| `CliFetch.SplitRefRoundTrip` | src/kaggleCli.ts:411 | `owner/slug` splits back into `owner` and `slug`. |
| `CliDispatch.FirstNonDash` | src/kaggleCli.ts:510 | Returns the first argument not starting with `-`. Every earlier argument starts with `-`. It returns none exactly when all arguments do. |
| `CliDispatch.FindPrefixed` | src/kaggleCli.ts:570 | Returns the first argument with the given prefix. It returns none exactly when no argument has the prefix. |
| `CliDispatch.FlagValue` | src/kaggleCli.ts:570-572 | A flag's value never contains `=`. There is no value when no argument carries the flag. When one does, there is a value exactly when the first such argument contains `=`. |
| `CliDispatch.FlagValueBetween` | src/kaggleCli.ts:570-572 | A flag's value is the text of the first argument with the flag's prefix between its first `=` and its second `=` or its end. |
| `CliDispatch.WorkDir` | src/kaggleCli.ts:511 | The working directory is `cwd` when it is non-empty, and the process's directory otherwise. |
| `CliDispatch.RefArg` | src/kaggleCli.ts:508-511 | The reference is a non-empty argument after the subcommand that does not start with `-`, and every argument between is a flag. There is none exactly when no such argument exists. |
| `CliDispatch.Dispatch` | src/kaggleCli.ts:485-586 | Fewer than two arguments is unsupported. Each command is selected exactly when its command and subcommand are given and its own condition holds: `--mine` for `kernels list`; a non-empty first non-dash argument for `kernels pull`/`status`/`output` and `datasets download`/`files`; a non-empty name and `-f=` value for `competitions submit`. The result is unsupported exactly when no command is selected. The directory is `cwd` or the process's directory. A submission's message defaults to "Submission from VS Code". |
| `CliDispatch.SuccessStdout` | src/kaggleCli.ts:496-581 | A successful pull, push, output download or dataset download prints its fixed message. The other commands print the value they resolved with. |
| `CliDispatch.PathsStdoutSplit` | src/kaggleCli.ts:560 | The paths of `datasets files`, printed one per line, are recovered by splitting the output on line feeds, when no path holds a line feed. |
| `CliDispatch.RunKaggleCli` | src/kaggleCli.ts:485-594 | Exit code 0 exactly when the command is supported and the operation succeeded. Otherwise exit code 1 with empty stdout. An unsupported command's stderr names the joined arguments. A thrown error is rendered into stderr. On success stdout is the operation's success output: its fixed message, its JSON text, or one path per line for `datasets files`. |
| `CliDispatch.SubmitRoundTrip` | src/kaggleCli.ts:567-578 | Writing a submission out as `competitions submit name -f=file -m=msg` dispatches back to the same name, file and message. An empty message becomes the default. |
| `CliDispatch.SubmitFlags` | src/kaggleCli.ts:570-573 | In those arguments, `-f` and `-m` yield the file and the message. |
| `CliDispatch.PullAfterFlags` | src/kaggleCli.ts:508-516 | `kernels pull` with any flags and then a reference pulls that reference into the working directory. |
| `KaggleApi.ListMyKernelsRequest` | src/kaggleApi.ts:91-99 | Parameters are `mine=true`, `page` (default 1) and `pageSize` (default 20), in that order. |
| `KaggleApi.ListDatasetsRequest` | src/kaggleApi.ts:229-240 | `page` (default 1) and `pageSize` (default 20) are always sent. `search` is sent, last, exactly when it is non-empty. |
| `KaggleApi.SetCredentials` | src/kaggleApi.ts:73-79 | The Basic-auth user is the username. The password is the key. |
| `KaggleApi.AuthRoundTrip` | src/kaggleApi.ts:73-79 | The credentials can be read back from the auth. Distinct credentials give distinct auth. |
| `KaggleApi.GetKaggleCredentials` | src/kaggleApi.ts:362-394 | A non-empty, parsing `KAGGLE_TOKEN_JSON` wins, with its fields copied unchecked. Otherwise a non-empty, parsing stored token wins. Otherwise the result is `null`. |
| `KaggleApi.EmptyEnvTokenShadowsStored` | src/kaggleApi.ts:364-371 | A `KAGGLE_TOKEN_JSON` of `{}` yields undefined fields even when a good stored token exists. |
| `KaggleApi.ResolversOnEnvToken` | src/kaggleApi.ts:364-371 | When the secret store yields nothing and `KAGGLE_TOKEN_JSON` parses, a token with both fields gives `getKaggleCreds` and `getKaggleCredentials` the same pair. A token missing a field is taken as it is by `getKaggleCredentials`, while `getKaggleCreds` resolves as if the variable were unset. |
| `KaggleApi.PullKernel` | src/kaggleApi.ts:119-147 | The metadata always goes to `kernel-metadata.json`. The blob, if any, goes to its own name, or to `notebook.ipynb` when the name is missing or empty. A failed request gives "Failed to pull kernel". |
| `KaggleApi.BlobFileName` | src/kaggleApi.ts:141 | The blob's file name is its own name when that is non-empty, and `notebook.ipynb` otherwise. |
| `KaggleApi.ContentAt` | src/kaggleApi.ts:136-143 | A path holds nothing exactly when no write targets it. |
| `KaggleApi.JoinPathInjective` | src/kaggleApi.ts:136-141 | In one directory, two names give the same path exactly when they are equal. |
| `KaggleApi.PullKernelFiles` | src/kaggleApi.ts:136-143 | The blob's file is the metadata file exactly when its name is `kernel-metadata.json`. Then the blob's source overwrites the metadata; otherwise the metadata file holds the metadata. The blob's file always holds the source. |
| `KaggleApi.SourceFiles` | src/kaggleApi.ts:163-167 | The filter never yields more names than were listed. What it keeps is pinned by `SourceFilesContents`, `SourceFilesSingle` and `SourceFilesAppend`. |
| `KaggleApi.SourceFilesContents` | src/kaggleApi.ts:163-167 | Keeps exactly the listed names ending in `.ipynb`, `.py`, `.r` or `.rmd`. The first kept name is the first matching listed name. |
| `KaggleApi.SourceFilesSingle` | src/kaggleApi.ts:165-167 | A single name is kept exactly when it has a source extension. |
| `KaggleApi.SourceFilesAppend` | src/kaggleApi.ts:163-167 | Filtering a listing split in two is filtering each part and concatenating. With the single-name rule this makes the result the in-order sublist of source files. |
| `KaggleApi.PushKernel` | src/kaggleApi.ts:149-189 | A missing metadata file, a metadata parse error, or no source file fails before any upload, with "Failed to push kernel: " wrapped around the rendered error: "kernel-metadata.json not found", the parse error, or "No source file found". Otherwise the first listed source file is uploaded. The call succeeds exactly when the metadata parses, some listed file is a source file and the upload succeeds; it then returns the server's answer. |
| `KaggleApi.DatasetArchivePath` | src/kaggleApi.ts:258 | The archive is the file `<slug>.zip` joined directly onto the output directory. An undefined slug gives `undefined.zip`. |
| `KaggleApi.ArchivePathsDistinct` | src/kaggleApi.ts:258 | Two datasets' archives in one directory share a path exactly when their slugs render alike. |
| `KaggleApi.KernelOutputPath` | src/kaggleApi.ts:214 | Kernel output is the file `output.zip` joined directly onto the output directory. |
| `KaggleApi.DownloadDatasetFiles` | src/kaggleApi.ts:272-309 | Files download one after another in listing order. Success returns one path per listed file. The first failing download fails the call, and the files before it stay written. A failed file list fails with nothing written. |
| `DatasetsProvider.ItemOf` | src/tree/datasetsProvider.ts:40-41 | An entry keeps the dataset's `ref`. Its address starts with the datasets page prefix. |
| `DatasetsProvider.GetChildren` | src/tree/datasetsProvider.ts:35-46 | At most 50 entries: the first `min(50, n)` datasets in order. Each address is the prefix followed by the `ref`. A failed listing gives no entries. |
| `DatasetsProvider.UrlNamesRef` | src/tree/datasetsProvider.ts:41 | Stripping the prefix from an entry's address gives back its `ref`. |
| `DatasetsProvider.OnlyFirstFiftyMatter` | src/tree/datasetsProvider.ts:39 | Datasets after the fiftieth never change the tree. |
| `MyNotebooksProvider.GetChildren` | src/tree/myNotebooksProvider.ts:38-54 | No user, or a failed listing, gives no entries. Otherwise there is one entry per kernel, in order, copying `id`, `title`, `author` and `url`. |
| `MyNotebooksProvider.NoUserNoListing` | src/tree/myNotebooksProvider.ts:39-40 | Without a user, the listing cannot affect the (empty) result. |
| `MyNotebooksProvider.ProjectionKeepsFields` | src/tree/myNotebooksProvider.ts:44-49 | A kernel with exactly the four shown properties is shown with exactly those values. |

## Left out

- `executeKaggleCLI` is not modelled: spawning a child process and capturing its streams is OS I/O. Its result is the input `ExecResult(code, stdout, stderr)`.
- `CliFetch.FetchListing`: does not model a `null` exit code (a process killed by a signal). The code is an integer, and `null` behaves like any non-zero code.
- HTTP calls are not modelled, since they go over the network. Their answers are inputs or failures. This covers `testAuthentication`, the kernel status, competition listing and submission calls, and the streamed downloads.
- `checkKaggleAPI` and `initializeKaggleApi` are not modelled: they are network probes built on `testAuthentication`.
- Filesystem writes, `mkdir`, write streams and multipart `FormData` are not modelled; they are I/O. The model returns the paths and contents that would be written.
- The file helpers in `src/utils.ts` are not modelled; they are I/O.
- `clearStoredToken` is not modelled: it only deletes from the secret store.
- Dialogs, input boxes, output-channel logging, `TreeItem` construction and event emitters are editor UI and are left out.
- JSON parsing and `JSON.stringify` of API results are not modelled. Each token source carries its parse outcome, and API results are opaque.
- `Tokens.StringifyPair`: does not escape quotes or backslashes in the username or key.
- `CliCredentials.GetKaggleCreds`: the secret-store read happens before the `try` (src/kaggleCli.ts:27). A rejected read makes `getKaggleCreds` reject with the store's own error, without trying `KAGGLE_TOKEN_JSON` or the environment pair. The model takes the secret as an input (absent or present) and does not model that error path.
- `Tokens.EncodedPair`: assumes that `JSON.parse(JSON.stringify({username, key}))` yields exactly that pair. The parse is an input to the model, so this is not proved.
- `Records.Assign`: appends every new property at the end. JavaScript lists integer-like property names (such as a CSV header `0`) first, in numeric order, so the model's property order differs for such names.
- Mutation of `process.env` and the singleton API client are global state. They are replaced by explicit `Sources` and explicit credentials.
- `JsString.Lower`: maps only the ASCII letters. `toLowerCase` applies full Unicode case mapping; the tool's header names are ASCII.
- `JsString.Trim`: works on Unicode scalar values, not UTF-16 code units.
- `KaggleApi.JoinPath`: joins with a single `/` and does not normalise `.`, `..` or repeated separators the way `path.join` does.
- API results are modelled as string-valued objects (`Records.Record`), like the CSV path's records. Non-string JSON values are not modelled.
- Property assignment ignores JavaScript's special `__proto__` name, and reads ignore names inherited from `Object.prototype` (such as `constructor` or `toString`), which JavaScript resolves to functions rather than `undefined`. The extension reads only `ref`, `id`, `title`, `author` and `url`, none of which is inherited.
- `CliFetch.DatasetsArgs`: the list is what `executeKaggleCLI` receives. It spawns the tool with `shell: true` (src/kaggleCli.ts:174-177), so the shell re-parses the joined command line: a term with white space becomes several arguments, and shell syntax such as `;` or `$(…)` in a term is run by the shell. The model does not follow that re-parsing.
- `MyNotebooksProvider.GetChildren`: reading the username happens before the `try` (src/tree/myNotebooksProvider.ts:39), so a rejected `getUsername` makes `getChildren` reject instead of returning no entries. The model takes the username as an input and does not model that error path.

=== FILE: cli_credentials.dfy ===
/** Credential resolution and sign-in in src/kaggleCli.ts: `getKaggleCreds`
    and the validation in `storeApiTokenFromFile` and
    `storeApiTokenFromEnvOrPrompt`. */
module CliCredentials {
  import opened Outcomes
  import opened JsString
  import opened Tokens

  /** Everything `getKaggleCreds` reads: the secret stored under
      `kaggle.api.token.json`, `KAGGLE_TOKEN_JSON`, `KAGGLE_USERNAME` and
      `KAGGLE_KEY`. */
  datatype Sources = Sources(
    secret: TokenSource,
    tokenJson: TokenSource,
    username: Option<string>,
    key: Option<string>)

  const NoTokenMessage := "No Kaggle token found. Run \"Kaggle: Sign In\" or set KAGGLE_TOKEN_JSON / KAGGLE_USERNAME & KAGGLE_KEY."
  const InvalidFileMessage := "Invalid kaggle.json (missing username/key)."
  const CanceledMessage := "Sign in canceled."

  /** Both `KAGGLE_USERNAME` and `KAGGLE_KEY` are set and non-empty. */
  predicate EnvPairSet(s: Sources) {
    Truthy(s.username) && Truthy(s.key)
  }

  /** `getKaggleCreds`: the secret store, then `KAGGLE_TOKEN_JSON`, then the
      `KAGGLE_USERNAME`/`KAGGLE_KEY` pair; a source that is empty, does not
      parse or lacks a field yields nothing and the next one is tried. */
  function GetKaggleCreds(s: Sources): (r: Result<Credentials>)
    ensures Usable(s.secret) ==> r == Ok(PairOf(s.secret))
    ensures !Usable(s.secret) && Usable(s.tokenJson) ==> r == Ok(PairOf(s.tokenJson))
    ensures !Usable(s.secret) && !Usable(s.tokenJson) && EnvPairSet(s) ==>
      r == Ok(Credentials(s.username.value, s.key.value))
    ensures r.Err? <==> !Usable(s.secret) && !Usable(s.tokenJson) && !EnvPairSet(s)
    ensures r.Err? ==> r.thrown == Thrown(NoTokenMessage)
    ensures r.Ok? ==> r.value.username != "" && r.value.key != ""
  {
    if Supplies(s.secret) && s.secret.json.Object?
       && Truthy(s.secret.json.username) && Truthy(s.secret.json.key) then
      Ok(Credentials(s.secret.json.username.value, s.secret.json.key.value))
    else if Supplies(s.tokenJson) && s.tokenJson.json.Object?
       && Truthy(s.tokenJson.json.username) && Truthy(s.tokenJson.json.key) then
      Ok(Credentials(s.tokenJson.json.username.value, s.tokenJson.json.key.value))
    else if Truthy(s.username) && Truthy(s.key) then
      Ok(Credentials(s.username.value, s.key.value))
    else
      Err(Thrown(NoTokenMessage))
  }

  /** A usable stored secret decides the outcome: the environment is never
      consulted. */
  lemma SecretShadowsEnvironment(s: Sources, t: Sources)
    requires Usable(s.secret) && t.secret == s.secret
    ensures GetKaggleCreds(t) == GetKaggleCreds(s)
  {
  }

  /** A secret that is absent, malformed or missing a field is as good as no
      secret at all; likewise for `KAGGLE_TOKEN_JSON` once the secret yielded
      nothing. */
  lemma UnusableSourcesFallThrough(s: Sources)
    ensures !Usable(s.secret) ==> GetKaggleCreds(s) == GetKaggleCreds(s.(secret := Absent))
    ensures !Usable(s.secret) && !Usable(s.tokenJson) ==>
      GetKaggleCreds(s) == GetKaggleCreds(s.(secret := Absent, tokenJson := Absent))
  {
  }

  /** `setupKaggleEnvironment`: export the resolved pair as
      `KAGGLE_USERNAME`/`KAGGLE_KEY` for the command-line tool. */
  function Export(s: Sources, c: Credentials): (t: Sources)
    ensures t.secret == s.secret && t.tokenJson == s.tokenJson
    ensures t.username == Some(c.username) && t.key == Some(c.key)
  {
    s.(username := Some(c.username), key := Some(c.key))
  }

  /** Resolving again after exporting the resolved pair gives the same pair,
      so the second resolution on the fallback path agrees with the first. */
  lemma ResolveAfterExport(s: Sources)
    requires GetKaggleCreds(s).Ok?
    ensures GetKaggleCreds(Export(s, GetKaggleCreds(s).value)) == GetKaggleCreds(s)
  {
  }

  /** What a sign-in command does to the secret store. */
  datatype SignIn = Unchanged | Stored(token: TokenSource) | Failed(thrown: string)

  /** The file picked in the open dialog: none, one that cannot be read, or
      its text with its parse. */
  datatype Picked = Cancelled | Unreadable(thrown: string) | Read(raw: string, json: Json)

  /** `storeApiTokenFromFile`: store the file's text verbatim if it parses
      and has truthy `username` and `key`; a parse error propagates; a
      missing field is rejected. */
  function StoreApiTokenFromFile(p: Picked): (r: SignIn)
    ensures p.Cancelled? <==> r.Unchanged?
    ensures r.Stored? <==> p.Read? && p.json.Object? && Truthy(p.json.username) && Truthy(p.json.key)
    ensures r.Stored? ==> r.token == Present(p.raw, p.json)
    ensures p.Unreadable? ==> r == Failed(p.thrown)
    ensures p.Read? && p.json.Malformed? ==> r == Failed(p.json.thrown)
    ensures p.Read? && p.json.Object? && !(Truthy(p.json.username) && Truthy(p.json.key)) ==>
      r == Failed(Thrown(InvalidFileMessage))
  {
    match p
    case Cancelled => Unchanged
    case Unreadable(e) => Failed(e)
    case Read(raw, json) =>
      match json
      case Malformed(e) => Failed(e)
      case Object(username, key) =>
        if !Truthy(username) || !Truthy(key) then Failed(Thrown(InvalidFileMessage))
        else Stored(Present(raw, json))
  }

  /** `storeApiTokenFromEnvOrPrompt`: a usable `KAGGLE_TOKEN_JSON` is stored
      verbatim; otherwise the user is asked for a username and then a key,
      and an empty or dismissed answer to either cancels the sign-in. The key
      is asked for only after a username was given. */
  function StoreApiTokenFromEnvOrPrompt(env: TokenSource, askUsername: Option<string>, askKey: Option<string>): (r: SignIn)
    ensures Usable(env) ==> r == Stored(env)
    ensures !Usable(env) && !Truthy(askUsername) ==> r == Failed(Thrown(CanceledMessage))
    ensures !Usable(env) && Truthy(askUsername) && !Truthy(askKey) ==> r == Failed(Thrown(CanceledMessage))
    ensures !Usable(env) && Truthy(askUsername) && Truthy(askKey) ==>
      r == Stored(EncodedPair(askUsername.value, askKey.value))
    ensures !r.Unchanged?
  {
    if Supplies(env) && env.json.Object? && Truthy(env.json.username) && Truthy(env.json.key) then
      Stored(env)
    else if !Truthy(askUsername) then
      Failed(Thrown(CanceledMessage))
    else if !Truthy(askKey) then
      Failed(Thrown(CanceledMessage))
    else
      Stored(EncodedPair(askUsername.value, askKey.value))
  }

  /** After a successful prompt-or-environment sign-in, resolution returns
      the signed-in pair whatever the environment holds. */
  lemma {:induction false} SignInThenResolve(s: Sources, env: TokenSource, askUsername: Option<string>, askKey: Option<string>)
    requires StoreApiTokenFromEnvOrPrompt(env, askUsername, askKey).Stored?
    ensures var t := StoreApiTokenFromEnvOrPrompt(env, askUsername, askKey).token;
      GetKaggleCreds(s.(secret := t)) ==
        if Usable(env) then Ok(PairOf(env)) else Ok(Credentials(askUsername.value, askKey.value))
  {
    var t := StoreApiTokenFromEnvOrPrompt(env, askUsername, askKey).token;
    if !Usable(env) {
      assert t == EncodedPair(askUsername.value, askKey.value);
      assert Usable(t);
    }
  }

  /** After signing in from a file, resolution returns the file's pair
      whatever the environment holds. The text is non-empty because
      `JSON.parse` throws on the empty string. */
  lemma {:induction false} FileSignInThenResolve(s: Sources, p: Picked)
    requires p.Read? && p.raw != ""
    requires StoreApiTokenFromFile(p).Stored?
    ensures GetKaggleCreds(s.(secret := StoreApiTokenFromFile(p).token)) ==
      Ok(Credentials(p.json.username.value, p.json.key.value))
  {
    assert Usable(StoreApiTokenFromFile(p).token);
  }
}

=== FILE: cli_csv.dfy ===
/** The record building shared by `listMyKernels` and `listDatasets` in
    src/kaggleCli.ts: the command-line tool's CSV output is trimmed, split
    into lines on every line feed and into cells on every comma (quotes are
    not interpreted), and every line after the first becomes an object keyed
    by the lower-cased header cells. */
module CliCsv {
  import opened Outcomes
  import opened JsString
  import opened Records

  /** `values[index] || ''`: the cell under a header, or the empty string
      when the row is short. */
  function Cell(values: seq<string>, index: nat): (v: string)
    ensures index < |values| ==> v == values[index]
    ensures index >= |values| ==> v == ""
  {
    if index < |values| then values[index] else ""
  }

  /** The object that `headers.forEach` fills in for the first `n` headers. */
  function BuildPrefix(headers: seq<string>, values: seq<string>, n: nat): Record
    requires n <= |headers|
  {
    if n == 0 then []
    else Assign(BuildPrefix(headers, values, n - 1), Lower(headers[n - 1]), Cell(values, n - 1))
  }

  /** The object built from one data row; it never holds a property twice. */
  function BuildRecord(headers: seq<string>, values: seq<string>): (r: Record)
    ensures DistinctNames(r)
  {
    BuildPrefixDistinct(headers, values, |headers|);
    BuildPrefix(headers, values, |headers|)
  }

  /** The last of the first `n` headers whose lower-cased form is `name`. */
  function LastHeader(headers: seq<string>, name: string, n: nat): (i: Option<nat>)
    requires n <= |headers|
    ensures i.Some? ==> i.value < n && Lower(headers[i.value]) == name
    ensures i.Some? ==> forall j :: i.value < j < n ==> Lower(headers[j]) != name
    ensures i.None? ==> forall j :: 0 <= j < n ==> Lower(headers[j]) != name
  {
    if n == 0 then None
    else if Lower(headers[n - 1]) == name then Some(n - 1)
    else LastHeader(headers, name, n - 1)
  }

  /** The value JavaScript semantics give property `name` of the object
      built from the first `n` headers: the cell under the last header with
      that lower-cased name, or `undefined` when there is none. */
  function HeaderCell(headers: seq<string>, values: seq<string>, name: string, n: nat): Option<string>
    requires n <= |headers|
  {
    match LastHeader(headers, name, n)
    case None => None
    case Some(i) => Some(Cell(values, i))
  }

  /** One more header either names the property, or leaves its value as it was. */
  lemma HeaderCellStep(headers: seq<string>, values: seq<string>, name: string, n: nat)
    requires 0 < n <= |headers|
    ensures HeaderCell(headers, values, name, n) ==
      if Lower(headers[n - 1]) == name then Some(Cell(values, n - 1)) else HeaderCell(headers, values, name, n - 1)
  {
  }

  /** Later headers overwrite earlier ones with the same lower-cased name. */
  lemma {:induction false} BuildPrefixGet(headers: seq<string>, values: seq<string>, n: nat, name: string)
    requires n <= |headers|
    ensures Get(BuildPrefix(headers, values, n), name) == HeaderCell(headers, values, name, n)
  {
    if n > 0 {
      BuildPrefixGet(headers, values, n - 1, name);
      HeaderCellStep(headers, values, name, n);
      AssignStep(BuildPrefix(headers, values, n), BuildPrefix(headers, values, n - 1),
        Lower(headers[n - 1]), Cell(values, n - 1), name,
        HeaderCell(headers, values, name, n), HeaderCell(headers, values, name, n - 1));
    }
  }

  /** A row's object never holds a property twice. */
  lemma {:induction false} BuildPrefixDistinct(headers: seq<string>, values: seq<string>, n: nat)
    requires n <= |headers|
    ensures DistinctNames(BuildPrefix(headers, values, n))
  {
    if n > 0 {
      BuildPrefixDistinct(headers, values, n - 1);
      AssignDistinct(BuildPrefix(headers, values, n - 1), Lower(headers[n - 1]), Cell(values, n - 1));
    }
  }

  /** Lookups in a row's object: property `name` exists exactly when some
      header lower-cases to it, and holds the cell under the last such header. */
  lemma RecordLookup(headers: seq<string>, values: seq<string>, name: string)
    ensures Get(BuildRecord(headers, values), name) == HeaderCell(headers, values, name, |headers|)
    ensures name in Names(BuildRecord(headers, values)) <==> exists j :: 0 <= j < |headers| && Lower(headers[j]) == name
    ensures DistinctNames(BuildRecord(headers, values))
  {
    BuildPrefixGet(headers, values, |headers|, name);
    BuildPrefixDistinct(headers, values, |headers|);
  }

  /** The lower-cased headers are pairwise distinct. */
  predicate DistinctLowered(headers: seq<string>) {
    forall i, j :: 0 <= i < j < |headers| ==> Lower(headers[i]) != Lower(headers[j])
  }

  /** Each of the first `n` lower-cased headers paired, in order, with the
      cell under it. */
  function Zip(headers: seq<string>, values: seq<string>, n: nat): (r: Record)
    requires n <= |headers|
    ensures |r| == n
    ensures forall i :: 0 <= i < n ==> r[i] == Field(Lower(headers[i]), Cell(values, i))
  {
    if n == 0 then [] else Zip(headers, values, n - 1) + [Field(Lower(headers[n - 1]), Cell(values, n - 1))]
  }

  /** With distinct lower-cased headers the object lists, in header order,
      each lower-cased header with the cell under it. */
  lemma {:induction false} BuildPrefixZip(headers: seq<string>, values: seq<string>, n: nat)
    requires n <= |headers| && DistinctLowered(headers)
    ensures BuildPrefix(headers, values, n) == Zip(headers, values, n)
  {
    if n > 0 {
      var h := Lower(headers[n - 1]);
      BuildPrefixZip(headers, values, n - 1);
      BuildPrefixGet(headers, values, n - 1, h);
      assert LastHeader(headers, h, n - 1).None?;
    }
  }

  /** `stdout.trim().split('\n')`. */
  function Lines(stdout: string): (lines: seq<string>)
    ensures |lines| == Count(Trim(stdout), '\n') + 1
    ensures forall i :: 0 <= i < |lines| ==> '\n' !in lines[i]
  {
    Split(Trim(stdout), '\n')
  }

  /** The records a successful listing's output turns into: none when the
      trimmed output has at most one line, otherwise one per line feed in it,
      that is one per line after the header. */
  function ParseListing(stdout: string): (rs: seq<Record>)
    ensures |Lines(stdout)| <= 1 ==> rs == []
    ensures |Lines(stdout)| > 1 ==> |rs| == Count(Trim(stdout), '\n')
  {
    var lines := Lines(stdout);
    if |lines| <= 1 then []
    else
      var headers := Split(lines[0], ',');
      seq(|lines| - 1, k requires 0 <= k < |lines| - 1 => BuildRecord(headers, Split(lines[k + 1], ',')))
  }

  /** Record `k` of a listing comes from line `k + 1`: property `name` is
      the cell of that line under the last header that lower-cases to
      `name`, or undefined; no value holds a comma or a line feed, and no
      property appears twice. */
  lemma ListingRecord(stdout: string, k: nat, name: string)
    requires k + 1 < |Lines(stdout)|
    ensures var lines := Lines(stdout);
      var headers := Split(lines[0], ',');
      && Get(ParseListing(stdout)[k], name) == HeaderCell(headers, Split(lines[k + 1], ','), name, |headers|)
      && DistinctNames(ParseListing(stdout)[k])
    ensures forall f :: 0 <= f < |ParseListing(stdout)[k]| ==>
      ',' !in ParseListing(stdout)[k][f].value && '\n' !in ParseListing(stdout)[k][f].value
  {
    var lines := Lines(stdout);
    var headers := Split(lines[0], ',');
    var values := Split(lines[k + 1], ',');
    var rec := ParseListing(stdout)[k];
    assert rec == BuildRecord(headers, values);
    RecordLookup(headers, values, name);
    forall f | 0 <= f < |rec| ensures ',' !in rec[f].value && '\n' !in rec[f].value {
      RecordLookup(headers, values, rec[f].name);
      NameAt(rec, f);
      DistinctGet(rec, f);
      var i := LastHeader(headers, rec[f].name, |headers|).value;
      CellInLine(lines[k + 1], i);
    }
  }

  /** A cell of a line holds neither a comma nor a line feed. */
  lemma CellInLine(line: string, i: nat)
    requires '\n' !in line
    ensures ',' !in Cell(Split(line, ','), i) && '\n' !in Cell(Split(line, ','), i)
  {
    var parts := Split(line, ',');
    if i < |parts| {
      JoinSplit(line, ',');
      JoinPartFree(parts, ",", i, '\n');
    }
  }

  /** A character absent from a join is absent from each joined piece. */
  lemma {:induction false} JoinPartFree(parts: seq<string>, sep: string, i: nat, c: char)
    requires i < |parts| && c !in JoinWith(parts, sep)
    ensures c !in parts[i]
  {
    if |parts| > 1 {
      assert JoinWith(parts, sep) == parts[0] + sep + JoinWith(parts[1..], sep);
      if i > 0 {
        JoinPartFree(parts[1..], sep, i - 1, c);
      }
    }
  }

  /** CSV text as the command-line tool prints a listing without quoting:
      the header line, then one line per row, cells joined by commas. */
  function RenderListing(header: seq<string>, rows: seq<seq<string>>): string {
    JoinWith([JoinWith(header, ",")] + seq(|rows|, k requires 0 <= k < |rows| => JoinWith(rows[k], ",")), "\n")
  }

  /** The text neither starts nor ends with a character `trim` removes. */
  predicate NoEdgeSpace(s: string) {
    |s| == 0 || (!IsTrimmable(s[0]) && !IsTrimmable(s[|s| - 1]))
  }

  /** Every character of the text is one `trim` removes. */
  predicate AllSpace(s: string) {
    forall k :: 0 <= k < |s| ==> IsTrimmable(s[k])
  }

  /** Parsing a rendered listing, with any white space before and after it
      (the tool ends its output with a line feed), gives back its rows: one
      record per row, in order, pairing each lower-cased header with the
      row's cell under it, provided no cell holds a comma or a line feed,
      every row is as wide as the header, the lower-cased headers are
      distinct and the rendered text itself neither starts nor ends with
      white space. */
  lemma ListingRoundTrip(pre: string, header: seq<string>, rows: seq<seq<string>>, post: string)
    requires |header| >= 1 && |rows| >= 1 && DistinctLowered(header)
    requires forall i :: 0 <= i < |header| ==> ',' !in header[i] && '\n' !in header[i]
    requires forall k :: 0 <= k < |rows| ==> |rows[k]| == |header|
    requires forall k, i :: 0 <= k < |rows| && 0 <= i < |rows[k]| ==> ',' !in rows[k][i] && '\n' !in rows[k][i]
    requires NoEdgeSpace(RenderListing(header, rows)) && AllSpace(pre) && AllSpace(post)
    ensures |ParseListing(pre + RenderListing(header, rows) + post)| == |rows|
    ensures forall k, i :: 0 <= k < |rows| && 0 <= i < |header| ==>
      |ParseListing(pre + RenderListing(header, rows) + post)[k]| == |header| &&
      ParseListing(pre + RenderListing(header, rows) + post)[k][i] == Field(Lower(header[i]), rows[k][i])
  {
    var text := RenderListing(header, rows);
    var lines := [JoinWith(header, ",")] + seq(|rows|, k requires 0 <= k < |rows| => JoinWith(rows[k], ","));
    forall j | 0 <= j < |lines| ensures '\n' !in lines[j] {
      if j == 0 {
        JoinFree(header, ",", '\n');
      } else {
        JoinFree(rows[j - 1], ",", '\n');
      }
    }
    assert text == lines[0] + "\n" + JoinWith(lines[1..], "\n");
    TrimPadded(pre, text, post);
    SplitJoin(lines, '\n');
    assert Lines(pre + text + post) == lines;
    SplitJoin(header, ',');
    var rs := ParseListing(pre + text + post);
    forall k | 0 <= k < |rows|
      ensures |rs[k]| == |header|
      ensures forall i :: 0 <= i < |header| ==> rs[k][i] == Field(Lower(header[i]), rows[k][i])
    {
      SplitJoin(rows[k], ',');
      assert lines[k + 1] == JoinWith(rows[k], ",");
      assert rs[k] == BuildRecord(header, rows[k]);
      BuildPrefixZip(header, rows[k], |header|);
    }
  }
}

=== FILE: cli_dispatch.dfy ===
/** `runKaggleCLI` in src/kaggleCli.ts: the legacy entry point that maps a
    command-line style argument list onto one extension operation and reports
    it as a process result. */
module CliDispatch {
  import opened Outcomes
  import opened JsString
  import opened CliFetch

  /** The operation an argument list selects, with its extracted arguments. */
  datatype Command =
    | ListMyKernels
    | PullKernel(ref: string, dir: string)
    | PushKernel(dir: string)
    | KernelStatus(ref: string)
    | KernelOutput(ref: string, dir: string)
    | ListDatasets
    | DownloadDataset(ref: string, dir: string)
    | DatasetFiles(ref: string, dir: string)
    | Submit(competition: string, file: string, message: string)
    | ListCompetitions
    | Unsupported

  const DefaultMessage := "Submission from VS Code"

  /** `args.find(arg => !arg.startsWith('-'))`. */
  function FirstNonDash(args: seq<string>): (r: Option<string>)
    ensures r.None? <==> forall i :: 0 <= i < |args| ==> StartsWith(args[i], "-")
    ensures r.Some? ==>
      exists i :: 0 <= i < |args| && args[i] == r.value && !StartsWith(r.value, "-") && forall j :: 0 <= j < i ==> StartsWith(args[j], "-")
  {
    if |args| == 0 then None
    else if !StartsWith(args[0], "-") then Some(args[0])
    else
      var r := FirstNonDash(args[1..]);
      assert r.Some? ==>
        exists i :: 0 <= i < |args| && args[i] == r.value && !StartsWith(r.value, "-") && forall j :: 0 <= j < i ==> StartsWith(args[j], "-")
      by {
        if r.Some? {
          var i :| 0 <= i < |args[1..]| && args[1..][i] == r.value && forall j :: 0 <= j < i ==> StartsWith(args[1..][j], "-");
          assert args[i + 1] == r.value;
          forall j | 0 <= j < i + 1 ensures StartsWith(args[j], "-") {
            if j > 0 { assert args[j] == args[1..][j - 1]; }
          }
        }
      }
      assert r.None? ==> forall i :: 0 <= i < |args| ==> StartsWith(args[i], "-") by {
        if r.None? {
          forall i | 0 <= i < |args| ensures StartsWith(args[i], "-") {
            if i > 0 { assert args[i] == args[1..][i - 1]; }
          }
        }
      }
      r
  }

  /** `args.find(arg => arg.startsWith(flag))`. */
  function FindPrefixed(args: seq<string>, flag: string): (r: Option<string>)
    ensures r.None? <==> forall i :: 0 <= i < |args| ==> !StartsWith(args[i], flag)
    ensures r.Some? ==> StartsWith(r.value, flag)
    ensures r.Some? ==>
      exists i :: 0 <= i < |args| && args[i] == r.value && forall j :: 0 <= j < i ==> !StartsWith(args[j], flag)
  {
    if |args| == 0 then None
    else if StartsWith(args[0], flag) then Some(args[0])
    else
      var r := FindPrefixed(args[1..], flag);
      assert r.Some? ==>
        exists i :: 0 <= i < |args| && args[i] == r.value && forall j :: 0 <= j < i ==> !StartsWith(args[j], flag)
      by {
        if r.Some? {
          var i :| 0 <= i < |args[1..]| && args[1..][i] == r.value && forall j :: 0 <= j < i ==> !StartsWith(args[1..][j], flag);
          assert args[i + 1] == r.value;
          forall j | 0 <= j < i + 1 ensures !StartsWith(args[j], flag) {
            if j > 0 { assert args[j] == args[1..][j - 1]; }
          }
        }
      }
      assert r.None? ==> forall i :: 0 <= i < |args| ==> !StartsWith(args[i], flag) by {
        if r.None? {
          forall i | 0 <= i < |args| ensures !StartsWith(args[i], flag) {
            if i > 0 { assert args[i] == args[1..][i - 1]; }
          }
        }
      }
      r
  }

  /** `args.find(arg => arg.startsWith(flag))?.split('=')[1]`: the text
      between the first and second `=` of the first argument with that
      prefix. */
  function FlagValue(args: seq<string>, flag: string): (r: Option<string>)
    ensures r.Some? ==> '=' !in r.value
    ensures FindPrefixed(args, flag).None? ==> r.None?
    ensures FindPrefixed(args, flag).Some? ==> (r.Some? <==> '=' in FindPrefixed(args, flag).value)
  {
    match FindPrefixed(args, flag)
    case None => None
    case Some(arg) =>
      var parts := Split(arg, '=');
      assert |parts| >= 2 <==> '=' in arg by {
        if '=' in arg { CountPresent(arg, '='); } else { CountAbsent(arg, '='); }
      }
      if |parts| >= 2 then Some(parts[1]) else None
  }

  /** A flag's value lies in the first argument with the flag's prefix,
      between its first `=` and its second `=` or its end. */
  lemma FlagValueBetween(args: seq<string>, flag: string) returns (i: nat, j: nat)
    requires FlagValue(args, flag).Some?
    ensures FindPrefixed(args, flag).Some?
    ensures var arg := FindPrefixed(args, flag).value;
      && i < j <= |arg| && arg[i] == '=' && '=' !in arg[..i] && (j == |arg| || arg[j] == '=')
      && FlagValue(args, flag).value == arg[i + 1..j]
  {
    var arg := FindPrefixed(args, flag).value;
    i, j := SplitSecond(arg, '=');
  }

  /** `cwd || process.cwd()`. */
  function WorkDir(cwd: Option<string>, processCwd: string): (dir: string)
    ensures Truthy(cwd) ==> dir == cwd.value
    ensures !Truthy(cwd) ==> dir == processCwd
  {
    if Truthy(cwd) then cwd.value else processCwd
  }

  /** The reference a ref-taking subcommand acts on: the first argument
      after the subcommand that does not start with a dash, if non-empty. */
  function RefArg(args: seq<string>): (r: Option<string>)
    requires |args| >= 2
    ensures r.Some? ==> r.value != "" && !StartsWith(r.value, "-")
    ensures r.Some? ==>
      exists i :: 2 <= i < |args| && args[i] == r.value && forall j :: 2 <= j < i ==> StartsWith(args[j], "-")
    ensures r.None? <==>
      !exists i :: 2 <= i < |args| && args[i] != "" && !StartsWith(args[i], "-") && forall j :: 2 <= j < i ==> StartsWith(args[j], "-")
  {
    var r := FirstNonDash(args[2..]);
    if Truthy(r) then r else None
  }

  /** The argument lists `runKaggleCLI` recognises: a supported command and
      subcommand, with `--mine` for the kernel listing, a reference for the
      ref-taking subcommands, and a competition name and a `-f=` file for a
      submission. */
  predicate Recognised(args: seq<string>) {
    && |args| >= 2
    && var head := args[..2];
    || (head == ["kernels", "list"] && "--mine" in args)
    || head == ["kernels", "push"] || head == ["datasets", "list"] || head == ["competitions", "list"]
    || ((head == ["kernels", "pull"] || head == ["kernels", "status"] || head == ["kernels", "output"]
         || head == ["datasets", "download"] || head == ["datasets", "files"]) && RefArg(args).Some?)
    || (|args| >= 3 && head == ["competitions", "submit"] && args[2] != "" && Truthy(FlagValue(args[2..], "-f")))
  }

  /** The switch in `runKaggleCLI`. */
  function Dispatch(args: seq<string>, cwd: Option<string>, processCwd: string): (c: Command)
    ensures |args| < 2 ==> c.Unsupported?
    ensures c.ListMyKernels? <==> |args| >= 2 && args[..2] == ["kernels", "list"] && "--mine" in args
    ensures c.PushKernel? <==> |args| >= 2 && args[..2] == ["kernels", "push"]
    ensures c.ListDatasets? <==> |args| >= 2 && args[..2] == ["datasets", "list"]
    ensures c.ListCompetitions? <==> |args| >= 2 && args[..2] == ["competitions", "list"]
    ensures c.PullKernel? <==> |args| >= 2 && args[..2] == ["kernels", "pull"] && RefArg(args).Some?
    ensures c.KernelStatus? <==> |args| >= 2 && args[..2] == ["kernels", "status"] && RefArg(args).Some?
    ensures c.KernelOutput? <==> |args| >= 2 && args[..2] == ["kernels", "output"] && RefArg(args).Some?
    ensures c.DownloadDataset? <==> |args| >= 2 && args[..2] == ["datasets", "download"] && RefArg(args).Some?
    ensures c.DatasetFiles? <==> |args| >= 2 && args[..2] == ["datasets", "files"] && RefArg(args).Some?
    ensures c.Unsupported? <==> !Recognised(args)
    ensures c.PullKernel? || c.KernelOutput? || c.DownloadDataset? || c.DatasetFiles? || c.KernelStatus? ==>
      |args| >= 2 && RefArg(args) == Some(c.ref) && !StartsWith(c.ref, "-") && c.ref != ""
    ensures c.PullKernel? || c.KernelOutput? || c.DownloadDataset? || c.DatasetFiles? || c.PushKernel? ==>
      c.dir == WorkDir(cwd, processCwd)
    ensures c.Submit? <==> |args| >= 3 && args[..2] == ["competitions", "submit"] && args[2] != "" && Truthy(FlagValue(args[2..], "-f"))
    ensures c.Submit? ==> c.competition == args[2] && Some(c.file) == FlagValue(args[2..], "-f")
    ensures c.Submit? ==> c.message == if Truthy(FlagValue(args[2..], "-m")) then FlagValue(args[2..], "-m").value else DefaultMessage
  {
    if |args| < 2 then Unsupported
    else
      var dir := WorkDir(cwd, processCwd);
      var command, sub := args[0], args[1];
      assert args[..2] == [command, sub];
      if command == "kernels" then
        if sub == "list" then (if "--mine" in args then ListMyKernels else Unsupported)
        else if sub == "pull" then (match RefArg(args) case Some(r) => PullKernel(r, dir) case None => Unsupported)
        else if sub == "push" then PushKernel(dir)
        else if sub == "status" then (match RefArg(args) case Some(r) => KernelStatus(r) case None => Unsupported)
        else if sub == "output" then (match RefArg(args) case Some(r) => KernelOutput(r, dir) case None => Unsupported)
        else Unsupported
      else if command == "datasets" then
        if sub == "list" then ListDatasets
        else if sub == "download" then (match RefArg(args) case Some(r) => DownloadDataset(r, dir) case None => Unsupported)
        else if sub == "files" then (match RefArg(args) case Some(r) => DatasetFiles(r, dir) case None => Unsupported)
        else Unsupported
      else if command == "competitions" then
        if sub == "submit" then
          var rest := args[2..];
          var name := if |rest| > 0 then Some(rest[0]) else None;
          var file := FlagValue(rest, "-f");
          var given := FlagValue(rest, "-m");
          var message := if Truthy(given) then given.value else DefaultMessage;
          if Truthy(name) && Truthy(file) then Submit(name.value, file.value, message) else Unsupported
        else if sub == "list" then ListCompetitions
        else Unsupported
      else Unsupported
  }

  /** What an operation resolved with: a value `JSON.stringify` renders, or
      the list of written paths of `downloadDatasetFiles`. */
  datatype Reply = Json(text: string) | Paths(paths: seq<string>)

  /** The operations that report a fixed message instead of their value. */
  predicate Announced(c: Command) {
    c.PullKernel? || c.PushKernel? || c.KernelOutput? || c.DownloadDataset?
  }

  /** Standard output of a successful operation: a fixed message for a
      pull, push, output download or dataset download; otherwise the value,
      a list of paths printed one per line. */
  function SuccessStdout(c: Command, reply: Reply): (out: string)
    ensures c.PullKernel? ==> out == "Kernel pulled successfully"
    ensures c.PushKernel? ==> out == "Kernel pushed successfully"
    ensures c.KernelOutput? ==> out == "Output downloaded successfully"
    ensures c.DownloadDataset? ==> out == "Dataset downloaded successfully"
    ensures !Announced(c) && reply.Json? ==> out == reply.text
  {
    match c
    case PullKernel(_, _) => "Kernel pulled successfully"
    case PushKernel(_) => "Kernel pushed successfully"
    case KernelOutput(_, _) => "Output downloaded successfully"
    case DownloadDataset(_, _) => "Dataset downloaded successfully"
    case _ =>
      match reply
      case Json(text) => text
      case Paths(ps) => JoinWith(ps, "\n")
  }

  /** A list of paths printed one per line is recovered by splitting the
      output on line feeds, when there is at least one path and no path holds
      a line feed. */
  lemma PathsStdoutSplit(c: Command, paths: seq<string>)
    requires !Announced(c) && |paths| >= 1
    requires forall i :: 0 <= i < |paths| ==> '\n' !in paths[i]
    ensures Split(SuccessStdout(c, Paths(paths)), '\n') == paths
  {
    SplitJoin(paths, '\n');
  }

  /** `runKaggleCLI`: run the selected operation (its settlement is
      `perform`) and report it; an unsupported command and every thrown
      error become exit code 1 with empty standard output. */
  function RunKaggleCli(args: seq<string>, cwd: Option<string>, processCwd: string, perform: Result<Reply>): (r: ExecResult)
    ensures r.code == 0 || r.code == 1
    ensures r.code == 0 <==> !Dispatch(args, cwd, processCwd).Unsupported? && perform.Ok?
    ensures r.code == 1 ==> r.stdout == "" && StartsWith(r.stderr, "Error: ")
    ensures r.code == 0 ==> r.stderr == ""
    ensures r.code == 0 ==> r.stdout == SuccessStdout(Dispatch(args, cwd, processCwd), perform.value)
    ensures Dispatch(args, cwd, processCwd).Unsupported? ==>
      r.stderr == "Error: " + Thrown("Unsupported command: " + JoinWith(args, " "))
    ensures !Dispatch(args, cwd, processCwd).Unsupported? && perform.Err? ==> r.stderr == "Error: " + perform.thrown
    ensures r.code == 0 && Dispatch(args, cwd, processCwd).DatasetFiles? && perform.value.Paths? ==>
      r.stdout == JoinWith(perform.value.paths, "\n")
  {
    var c := Dispatch(args, cwd, processCwd);
    var outcome := if c.Unsupported? then Err(Thrown("Unsupported command: " + JoinWith(args, " "))) else perform;
    match outcome
    case Ok(reply) => ExecResult(0, SuccessStdout(c, reply), "")
    case Err(e) =>
      assert StartsWith("Error: " + e, "Error: ") by { assert ("Error: " + e)[..7] == "Error: "; }
      ExecResult(1, "", "Error: " + e)
  }

  /** The arguments a caller writes for a competition submission. */
  function SubmitArgs(competition: string, file: string, message: string): seq<string> {
    ["competitions", "submit", competition, "-f=" + file, "-m=" + message]
  }

  /** A submission written out as arguments is dispatched back to the same
      competition, file and message (an empty message becomes the default),
      provided the values hold no `=` and the competition name does not look
      like a flag. */
  lemma SubmitRoundTrip(competition: string, file: string, message: string, cwd: Option<string>, processCwd: string)
    requires competition != "" && file != ""
    requires !StartsWith(competition, "-f") && !StartsWith(competition, "-m")
    requires '=' !in file && '=' !in message
    ensures Dispatch(SubmitArgs(competition, file, message), cwd, processCwd) ==
      Submit(competition, file, if message != "" then message else DefaultMessage)
  {
    var args := SubmitArgs(competition, file, message);
    assert args[2..] == [competition, "-f=" + file, "-m=" + message];
    SubmitFlags(competition, file, message);
  }

  /** The values of `-f=` and `-m=` in a submission's arguments. */
  lemma SubmitFlags(competition: string, file: string, message: string)
    requires !StartsWith(competition, "-f") && !StartsWith(competition, "-m")
    requires '=' !in file && '=' !in message
    ensures FlagValue([competition, "-f=" + file, "-m=" + message], "-f") == Some(file)
    ensures FlagValue([competition, "-f=" + file, "-m=" + message], "-m") == Some(message)
  {
    var rest := [competition, "-f=" + file, "-m=" + message];
    assert StartsWith("-f=" + file, "-f") by { assert ("-f=" + file)[..2] == "-f"; }
    assert StartsWith("-m=" + message, "-m") by { assert ("-m=" + message)[..2] == "-m"; }
    assert !StartsWith("-f=" + file, "-m") by { assert ("-f=" + file)[1] == 'f'; }
    assert rest[1..] == ["-f=" + file, "-m=" + message];
    assert rest[1..][1..] == ["-m=" + message];
    assert FindPrefixed(rest, "-f") == Some("-f=" + file);
    assert FindPrefixed(rest[1..][1..], "-m") == Some("-m=" + message);
    assert FindPrefixed(rest, "-m") == Some("-m=" + message);
    KeyValueSplit("-f", file);
    KeyValueSplit("-m", message);
    assert "-f=" + file == "-f" + "=" + file;
    assert "-m=" + message == "-m" + "=" + message;
    assert Split("-f=" + file, '=')[1] == file;
    assert Split("-m=" + message, '=')[1] == message;
  }

  /** `(key + "=" + value).split('=')` for a key and value without `=`. */
  lemma KeyValueSplit(key: string, value: string)
    requires '=' !in key && '=' !in value
    ensures Split(key + "=" + value, '=') == [key, value]
  {
    SplitPrefixed(key, value, '=');
    SplitFree(value, '=');
    assert key + "=" + value == key + ['='] + value;
  }

  /** A reference after any number of flags is the one a pull acts on. */
  lemma PullAfterFlags(flags: seq<string>, ref: string, rest: seq<string>, cwd: Option<string>, processCwd: string)
    requires forall i :: 0 <= i < |flags| ==> StartsWith(flags[i], "-")
    requires ref != "" && !StartsWith(ref, "-")
    ensures Dispatch(["kernels", "pull"] + flags + [ref] + rest, cwd, processCwd) == PullKernel(ref, WorkDir(cwd, processCwd))
  {
    var args := ["kernels", "pull"] + flags + [ref] + rest;
    assert args[2..] == flags + [ref] + rest;
    FirstNonDashAfterFlags(flags, ref, rest);
  }

  lemma {:induction false} FirstNonDashAfterFlags(flags: seq<string>, ref: string, rest: seq<string>)
    requires forall i :: 0 <= i < |flags| ==> StartsWith(flags[i], "-")
    requires !StartsWith(ref, "-")
    ensures FirstNonDash(flags + [ref] + rest) == Some(ref)
  {
    if |flags| > 0 {
      FirstNonDashAfterFlags(flags[1..], ref, rest);
      assert (flags + [ref] + rest)[1..] == flags[1..] + [ref] + rest;
    } else {
      assert (flags + [ref] + rest)[0] == ref;
    }
  }
}

=== FILE: cli_fetch.dfy ===
/** The command-line-first listings of src/kaggleCli.ts (`listMyKernels`,
    `listDatasets`) and the reference splitting shared by its pull, status,
    output and download wrappers.

    A listing resolves credentials and exports them for the tool, runs the
    tool and, on a zero exit code, parses its CSV output. If resolving threw
    or the tool exited non-zero it resolves credentials again and asks the
    REST API once. Whatever the API path throws is rethrown unchanged. */
module CliFetch {
  import opened Outcomes
  import opened JsString
  import opened Records
  import opened Tokens
  import opened CliCredentials
  import opened CliCsv
  import opened KaggleApi

  /** What `executeKaggleCLI` resolves with; it never rejects (a spawn
      error resolves with code 1). */
  datatype ExecResult = ExecResult(code: int, stdout: string, stderr: string)

  /** Where a listing's records came from, or what it threw. */
  datatype Fetched = FromCli(records: seq<Record>) | FromApi(records: seq<Record>) | Threw(thrown: string)

  /** One listing call: the tool's arguments if it was run, the API request
      if one was sent, and the outcome. */
  datatype Listing = Listing(ran: Option<seq<string>>, asked: Option<Request>, fetched: Fetched)

  /** The listing strategy shared by `listMyKernels` and `listDatasets`.
      `cli` is what the tool would report and `api` what the REST call would
      return; each is used only if that path is taken. */
  function FetchListing(s: Sources, args: seq<string>, request: Request, cli: ExecResult, api: Result<seq<Record>>): (r: Listing)
    ensures r.ran.Some? <==> GetKaggleCreds(s).Ok?
    ensures r.ran.Some? ==> r.ran.value == args
    ensures r.asked.Some? <==> GetKaggleCreds(s).Ok? && cli.code != 0
    ensures r.asked.Some? ==> r.asked.value == request
    ensures r.fetched.FromCli? <==> GetKaggleCreds(s).Ok? && cli.code == 0
    ensures r.fetched.FromCli? ==> r.fetched.records == ParseListing(cli.stdout)
    ensures r.fetched.FromApi? <==> GetKaggleCreds(s).Ok? && cli.code != 0 && api.Ok?
    ensures r.fetched.FromApi? ==> r.fetched.records == api.value
    ensures GetKaggleCreds(s).Err? ==> r.fetched == Threw(GetKaggleCreds(s).thrown)
    ensures GetKaggleCreds(s).Ok? && cli.code != 0 && api.Err? ==> r.fetched == Threw(api.thrown)
  {
    var first := GetKaggleCreds(s);
    if first.Ok? && cli.code == 0 then
      Listing(Some(args), None, FromCli(ParseListing(cli.stdout)))
    else
      // The tool's block either threw while resolving (the environment is
      // untouched) or ran after exporting the pair; resolution starts over.
      var env := if first.Ok? then Export(s, first.value) else s;
      var ran := if first.Ok? then Some(args) else None;
      assert GetKaggleCreds(env) == first by {
        if first.Ok? { ResolveAfterExport(s); }
      }
      match GetKaggleCreds(env)
      case Err(e) => Listing(ran, None, Threw(e))
      case Ok(_) =>
        match api
        case Ok(rs) => Listing(ran, Some(request), FromApi(rs))
        case Err(e) => Listing(ran, Some(request), Threw(e))
  }

  /** With a zero exit code the REST result is irrelevant: the API is not
      touched. */
  lemma ZeroExitIgnoresApi(s: Sources, args: seq<string>, q: Request, cli: ExecResult, api: Result<seq<Record>>, api': Result<seq<Record>>)
    requires cli.code == 0
    ensures FetchListing(s, args, q, cli, api) == FetchListing(s, args, q, cli, api')
  {
  }

  /** A tool run that exits 0 with only a header line (or nothing) gives an
      empty list and no API call. */
  lemma HeaderOnlyIsEmpty(s: Sources, args: seq<string>, q: Request, cli: ExecResult, api: Result<seq<Record>>)
    requires GetKaggleCreds(s).Ok? && cli.code == 0 && '\n' !in Trim(cli.stdout)
    ensures FetchListing(s, args, q, cli, api) == Listing(Some(args), None, FromCli([]))
  {
    CountAbsent(Trim(cli.stdout), '\n');
  }

  const MyKernelsArgs := ["kernels", "list", "--mine", "--csv", "--page-size", "100"]

  /** `listMyKernels`: the tool with `--mine --csv --page-size 100`, else
      the API's first page of 100. */
  function ListMyKernels(s: Sources, cli: ExecResult, api: Result<seq<Record>>): (r: Listing)
    ensures r.ran.Some? <==> GetKaggleCreds(s).Ok?
    ensures r.ran.Some? ==> r.ran.value == MyKernelsArgs
    ensures r.asked.Some? <==> GetKaggleCreds(s).Ok? && cli.code != 0
    ensures r.asked.Some? ==> r.asked.value.path == "/kernels/list"
    ensures r.asked.Some? ==> r.asked.value.params == [Param("mine", Text("true")), Param("page", Num(1)), Param("pageSize", Num(100))]
    ensures r.fetched.FromCli? <==> GetKaggleCreds(s).Ok? && cli.code == 0
    ensures r.fetched.FromCli? ==> r.fetched.records == ParseListing(cli.stdout)
    ensures r.fetched.FromApi? <==> GetKaggleCreds(s).Ok? && cli.code != 0 && api.Ok?
    ensures r.fetched.FromApi? ==> r.fetched.records == api.value
    ensures GetKaggleCreds(s).Err? ==> r.fetched == Threw(GetKaggleCreds(s).thrown)
    ensures GetKaggleCreds(s).Ok? && cli.code != 0 && api.Err? ==> r.fetched == Threw(api.thrown)
  {
    var q := ListMyKernelsRequest(Some(1), Some(100));
    assert q.params == [Param("mine", Text("true")), Param("page", Num(1)), Param("pageSize", Num(100))];
    FetchListing(s, MyKernelsArgs, q, cli, api)
  }

  /** The tool's arguments for `listDatasets`: `--search <term>` only for a
      non-empty term. */
  function DatasetsArgs(search: Option<string>): (args: seq<string>)
    ensures |args| >= 3 && args[..3] == ["datasets", "list", "--csv"]
    ensures Truthy(search) ==> args == ["datasets", "list", "--csv", "--search", search.value]
    ensures !Truthy(search) ==> args == ["datasets", "list", "--csv"]
  {
    var base := ["datasets", "list", "--csv"];
    if Truthy(search) then base + ["--search", search.value] else base
  }

  /** `listDatasets(search?)`: the tool filtered by the term, else the API's
      default page filtered by the same term. */
  function ListDatasets(s: Sources, search: Option<string>, cli: ExecResult, api: Result<seq<Record>>): (r: Listing)
    ensures r.ran.Some? <==> GetKaggleCreds(s).Ok?
    ensures r.ran.Some? ==> r.ran.value == DatasetsArgs(search)
    ensures r.ran.Some? ==> ("--search" in r.ran.value <==> Truthy(search))
    ensures r.asked.Some? <==> GetKaggleCreds(s).Ok? && cli.code != 0
    ensures r.asked.Some? ==> r.asked.value == ListDatasetsRequest(search, None, None)
    ensures r.asked.Some? ==> ("search" in ParamNames(r.asked.value.params) <==> Truthy(search))
    ensures r.fetched.FromCli? <==> GetKaggleCreds(s).Ok? && cli.code == 0
    ensures r.fetched.FromCli? ==> r.fetched.records == ParseListing(cli.stdout)
    ensures r.fetched.FromApi? <==> GetKaggleCreds(s).Ok? && cli.code != 0 && api.Ok?
    ensures r.fetched.FromApi? ==> r.fetched.records == api.value
    ensures GetKaggleCreds(s).Err? ==> r.fetched == Threw(GetKaggleCreds(s).thrown)
    ensures GetKaggleCreds(s).Ok? && cli.code != 0 && api.Err? ==> r.fetched == Threw(api.thrown)
  {
    var args := DatasetsArgs(search);
    assert "--search" in args <==> Truthy(search) by {
      if !Truthy(search) {
        assert args == ["datasets", "list", "--csv"];
      } else {
        assert args[3] == "--search";
      }
    }
    FetchListing(s, args, ListDatasetsRequest(search, None, None), cli, api)
  }

  /** `const [a, b] = ref.split('/')`: the text before the first slash, and
      the text between the first and second slash if there is one. */
  function SplitRef(ref: string): (r: (string, Option<string>))
    ensures '/' !in r.0
    ensures r.1.Some? ==> '/' !in r.1.value
    ensures r.1.None? <==> '/' !in ref
    ensures r.1.None? ==> r.0 == ref
    ensures r.1.Some? ==> |r.0| < |ref| && ref[..|r.0|] == r.0 && ref[|r.0|] == '/'
    ensures r.1.Some? ==>
      var k := |r.0| + 1 + |r.1.value|;
      k <= |ref| && ref[|r.0| + 1..k] == r.1.value && (k == |ref| || ref[k] == '/')
  {
    var parts := Split(ref, '/');
    if |parts| == 1 then
      assert '/' !in ref by { JoinSplit(ref, '/'); }
      assert parts[0] == ref by { SplitFree(ref, '/'); }
      (parts[0], None)
    else
      assert '/' in ref by {
        if '/' !in ref { CountAbsent(ref, '/'); }
      }
      var k := |parts[0]| + 1 + |parts[1]|;
      assert |parts[0]| < |ref| && ref[..|parts[0]|] == parts[0] && ref[|parts[0]|] == '/'
        && k <= |ref| && ref[|parts[0]| + 1..k] == parts[1] && (k == |ref| || ref[k] == '/')
      by {
        var i, j := SplitSecond(ref, '/');
        assert |ref[..i]| == i;
      }
      (parts[0], Some(parts[1]))
  }

  /** An `owner/slug` reference splits into its owner and slug. */
  lemma SplitRefRoundTrip(owner: string, slug: string)
    requires '/' !in owner && '/' !in slug
    ensures SplitRef(owner + "/" + slug) == (owner, Some(slug))
  {
    SplitPrefixed(owner, slug, '/');
    SplitFree(slug, '/');
  }
}

=== FILE: datasets_provider.dfy ===
/** `DatasetsProvider.getChildren` in src/tree/datasetsProvider.ts: the
    dataset tree shows at most 50 datasets, each linked to its page. */
module DatasetsProvider {
  import opened Outcomes
  import opened JsString
  import opened Records

  /** A tree entry: the dataset's reference and its page address. */
  datatype DatasetItem = DatasetItem(ref: Option<string>, url: string)

  const MaxItems := 50
  const DatasetUrlPrefix := "https://www.kaggle.com/datasets/"

  /** The entry for one listed dataset. */
  function ItemOf(dataset: Record): (item: DatasetItem)
    ensures item.ref == Get(dataset, "ref")
    ensures StartsWith(item.url, DatasetUrlPrefix)
  {
    var url := DatasetUrlPrefix + Render(Get(dataset, "ref"));
    assert url[..|DatasetUrlPrefix|] == DatasetUrlPrefix;
    DatasetItem(Get(dataset, "ref"), url)
  }

  /** `getChildren`: the first 50 listed datasets in order, or no entries
      when the listing failed. */
  function GetChildren(listing: Result<seq<Record>>): (items: seq<DatasetItem>)
    ensures |items| <= MaxItems
    ensures listing.Err? ==> items == []
    ensures listing.Ok? ==> |items| == if |listing.value| < MaxItems then |listing.value| else MaxItems
    ensures listing.Ok? ==> forall i :: 0 <= i < |items| ==>
      items[i].ref == Get(listing.value[i], "ref") && items[i].url == DatasetUrlPrefix + Render(items[i].ref)
  {
    match listing
    case Err(_) => []
    case Ok(datasets) =>
      var shown := if |datasets| < MaxItems then datasets else datasets[..MaxItems];
      seq(|shown|, i requires 0 <= i < |shown| => ItemOf(shown[i]))
  }

  /** The reference an entry's address names. */
  function RefOfUrl(url: string): Option<string> {
    if StartsWith(url, DatasetUrlPrefix) then Some(url[|DatasetUrlPrefix|..]) else None
  }

  /** Every entry's address leads back to its dataset's reference (an
      undefined reference is rendered as `undefined`). */
  lemma UrlNamesRef(listing: Result<seq<Record>>, i: nat)
    requires i < |GetChildren(listing)|
    ensures RefOfUrl(GetChildren(listing)[i].url) == Some(Render(GetChildren(listing)[i].ref))
  {
    var item := GetChildren(listing)[i];
    assert item.url[..|DatasetUrlPrefix|] == DatasetUrlPrefix;
  }

  /** Datasets past the fiftieth never reach the tree. */
  lemma OnlyFirstFiftyMatter(datasets: seq<Record>, more: seq<Record>)
    requires |datasets| >= MaxItems
    ensures GetChildren(Ok(datasets + more)) == GetChildren(Ok(datasets))
  {
    var a := GetChildren(Ok(datasets + more));
    var b := GetChildren(Ok(datasets));
    assert |a| == |b|;
    forall i | 0 <= i < |a| ensures a[i] == b[i] {
      assert (datasets + more)[i] == datasets[i];
    }
  }
}

=== FILE: js_string.dfy ===
/** The few ECMAScript string primitives the extension relies on, with the
    semantics JavaScript gives them: `trim`, `split` on a one-character
    separator, `join`, `startsWith`, `endsWith` and `toLowerCase`. */
module JsString {
  import opened Outcomes

  /** Characters `String.prototype.trim` removes: the WhiteSpace and
      LineTerminator productions of ECMAScript (tab, vertical tab, form feed,
      space, no-break space, byte-order mark, the space separators, line feed,
      carriage return, line and paragraph separators). */
  predicate IsTrimmable(c: char) {
    || c == '\t' || c == '\n' || c == '\U{B}' || c == '\U{C}' || c == '\r' || c == ' '
    || c == '\U{A0}' || c == '\U{1680}' || ('\U{2000}' <= c <= '\U{200A}')
    || c == '\U{2028}' || c == '\U{2029}' || c == '\U{202F}' || c == '\U{205F}'
    || c == '\U{3000}' || c == '\U{FEFF}'
  }

  /** Number of trimmable characters at the start of `s`. */
  function LeadingSpace(s: string): (n: nat)
    ensures n <= |s|
    ensures forall k :: 0 <= k < n ==> IsTrimmable(s[k])
    ensures n < |s| ==> !IsTrimmable(s[n])
  {
    if |s| == 0 || !IsTrimmable(s[0]) then 0 else 1 + LeadingSpace(s[1..])
  }

  /** Number of trimmable characters at the end of `s`. */
  function TrailingSpace(s: string): (n: nat)
    ensures n <= |s|
    ensures forall k :: |s| - n <= k < |s| ==> IsTrimmable(s[k])
    ensures n < |s| ==> !IsTrimmable(s[|s| - n - 1])
  {
    if |s| == 0 || !IsTrimmable(s[|s| - 1]) then 0 else 1 + TrailingSpace(s[..|s| - 1])
  }

  /** `s.trim()`: the longest slice of `s` that neither starts nor ends with
      a trimmable character; everything cut away is trimmable. */
  function Trim(s: string): (r: string)
    ensures LeadingSpace(s) + |r| <= |s|
    ensures r == s[LeadingSpace(s)..LeadingSpace(s) + |r|]
    ensures |r| > 0 ==> !IsTrimmable(r[0]) && !IsTrimmable(r[|r| - 1])
    ensures forall k :: 0 <= k < LeadingSpace(s) ==> IsTrimmable(s[k])
    ensures forall k :: LeadingSpace(s) + |r| <= k < |s| ==> IsTrimmable(s[k])
  {
    var t := s[LeadingSpace(s)..];
    t[..|t| - TrailingSpace(t)]
  }

  /** Number of occurrences of `c` in `s`. */
  function Count(s: string, c: char): nat {
    if |s| == 0 then 0 else (if s[0] == c then 1 else 0) + Count(s[1..], c)
  }

  /** `s.split(sep)` for a one-character separator: the pieces between
      consecutive occurrences of `sep`, empty pieces included; the empty
      string splits into one empty piece. */
  function Split(s: string, sep: char): (parts: seq<string>)
    ensures |parts| == Count(s, sep) + 1
    ensures forall i :: 0 <= i < |parts| ==> sep !in parts[i]
  {
    if |s| == 0 then [""]
    else
      var rest := Split(s[1..], sep);
      if s[0] == sep then [""] + rest else [[s[0]] + rest[0]] + rest[1..]
  }

  /** `parts.join(sep)`: the pieces with `sep` between neighbours. */
  function JoinWith(parts: seq<string>, sep: string): (r: string)
    ensures |parts| == 0 ==> r == ""
  {
    if |parts| == 0 then ""
    else if |parts| == 1 then parts[0]
    else parts[0] + sep + JoinWith(parts[1..], sep)
  }

  /** A join starts with its first piece and ends with its last. */
  lemma {:induction false} JoinEnds(parts: seq<string>, sep: string)
    requires |parts| >= 1
    ensures StartsWith(JoinWith(parts, sep), parts[0]) && EndsWith(JoinWith(parts, sep), parts[|parts| - 1])
  {
    var r := JoinWith(parts, sep);
    var first, last := parts[0], parts[|parts| - 1];
    if |parts| > 1 {
      var tail := parts[1..];
      var rest := JoinWith(tail, sep);
      JoinEnds(tail, sep);
      assert tail[|tail| - 1] == last;
      var head := first + sep;
      assert r == head + rest;
      assert r[..|first|] == first;
      assert r[|head|..] == rest;
      assert r[|r| - |last|..] == rest[|rest| - |last|..];
    }
  }

  /** Joining the pieces of a split with the separator gives back the string. */
  lemma {:induction false} JoinSplit(s: string, sep: char)
    ensures JoinWith(Split(s, sep), [sep]) == s
  {
    if |s| > 0 {
      var rest := Split(s[1..], sep);
      JoinSplit(s[1..], sep);
      if s[0] == sep {
        assert Split(s, sep) == [""] + rest;
        assert JoinWith([""] + rest, [sep]) == "" + [sep] + JoinWith(rest, [sep]);
        assert s == [s[0]] + s[1..];
      } else {
        var head := [s[0]] + rest[0];
        assert Split(s, sep) == [head] + rest[1..];
        if |rest| == 1 {
          assert JoinWith([head], [sep]) == head;
          assert rest[0] == s[1..];
        } else {
          assert JoinWith([head] + rest[1..], [sep]) == head + [sep] + JoinWith(rest[1..], [sep]);
          assert JoinWith(rest, [sep]) == rest[0] + [sep] + JoinWith(rest[1..], [sep]);
        }
        assert s == [s[0]] + s[1..];
      }
    }
  }

  /** Splitting a join of separator-free pieces gives back the pieces. */
  lemma {:induction false} SplitJoin(parts: seq<string>, sep: char)
    requires |parts| >= 1
    requires forall i :: 0 <= i < |parts| ==> sep !in parts[i]
    ensures Split(JoinWith(parts, [sep]), sep) == parts
  {
    if |parts| == 1 {
      SplitFree(parts[0], sep);
    } else {
      SplitJoin(parts[1..], sep);
      SplitPrefixed(parts[0], JoinWith(parts[1..], [sep]), sep);
      assert JoinWith(parts, [sep]) == parts[0] + [sep] + JoinWith(parts[1..], [sep]);
      assert parts == [parts[0]] + parts[1..];
    }
  }

  /** A string without the separator splits into itself alone. */
  lemma {:induction false} SplitFree(s: string, sep: char)
    requires sep !in s
    ensures Split(s, sep) == [s]
  {
    if |s| > 0 {
      assert sep !in s[1..] by {
        forall k | 0 <= k < |s[1..]| ensures s[1..][k] != sep {
          assert s[1..][k] == s[k + 1];
        }
      }
      SplitFree(s[1..], sep);
      assert s == [s[0]] + s[1..];
    }
  }

  /** A separator-free head followed by the separator is split off as the
      first piece. */
  lemma {:induction false} SplitPrefixed(head: string, tail: string, sep: char)
    requires sep !in head
    ensures Split(head + [sep] + tail, sep) == [head] + Split(tail, sep)
  {
    if |head| == 0 {
      assert head + [sep] + tail == [sep] + tail;
      assert ([sep] + tail)[1..] == tail;
    } else {
      assert sep !in head[1..] by {
        forall k | 0 <= k < |head[1..]| ensures head[1..][k] != sep {
          assert head[1..][k] == head[k + 1];
        }
      }
      SplitPrefixed(head[1..], tail, sep);
      var s := head + [sep] + tail;
      assert s[0] == head[0];
      assert s[1..] == head[1..] + [sep] + tail;
      assert [head[0]] + head[1..] == head;
    }
  }

  /** Joined pieces free of a character stay free of it when the joint is
      free of it too. */
  lemma {:induction false} JoinFree(parts: seq<string>, sep: string, c: char)
    requires c !in sep
    requires forall i :: 0 <= i < |parts| ==> c !in parts[i]
    ensures c !in JoinWith(parts, sep)
  {
    if |parts| > 1 {
      JoinFree(parts[1..], sep, c);
    }
  }

  /** A character that does not occur is counted zero times. */
  lemma {:induction false} CountAbsent(s: string, c: char)
    requires c !in s
    ensures Count(s, c) == 0
  {
    if |s| > 0 {
      assert c !in s[1..] by {
        forall k | 0 <= k < |s[1..]| ensures s[1..][k] != c { assert s[1..][k] == s[k + 1]; }
      }
      CountAbsent(s[1..], c);
    }
  }

  /** A character that occurs is counted at least once. */
  lemma {:induction false} CountPresent(s: string, c: char)
    requires c in s
    ensures Count(s, c) > 0
  {
    if s[0] != c {
      assert c in s[1..] by {
        var k :| 0 <= k < |s| && s[k] == c;
        assert s[1..][k - 1] == c;
      }
      CountPresent(s[1..], c);
    }
  }

  /** When `sep` occurs in `s`, the second piece of `s.split(sep)` is the
      text between the first occurrence of `sep` and the next one, or the end
      of `s` when there is no next one. */
  lemma SplitSecond(s: string, sep: char) returns (i: nat, j: nat)
    requires sep in s
    ensures i < j <= |s| && s[i] == sep && sep !in s[..i]
    ensures |Split(s, sep)| >= 2 && Split(s, sep)[0] == s[..i] && Split(s, sep)[1] == s[i + 1..j]
    ensures j == |s| || s[j] == sep
  {
    var parts := Split(s, sep);
    CountPresent(s, sep);
    JoinSplit(s, sep);
    var tail := JoinWith(parts[1..], [sep]);
    assert s == parts[0] + [sep] + tail;
    i := |parts[0]|;
    j := i + 1 + |parts[1]|;
    assert s[..i] == parts[0];
    if |parts| == 2 {
      assert tail == parts[1];
    } else {
      assert tail == parts[1] + [sep] + JoinWith(parts[2..], [sep]);
      assert s[j] == tail[|parts[1]|];
    }
    assert s[i + 1..j] == tail[..|parts[1]|];
  }

  /** Trimmable characters in front of a text that starts with a kept
      character are exactly its leading space. */
  lemma {:induction false} LeadingPadded(pre: string, t: string)
    requires forall k :: 0 <= k < |pre| ==> IsTrimmable(pre[k])
    requires |t| > 0 && !IsTrimmable(t[0])
    ensures LeadingSpace(pre + t) == |pre|
  {
    if |pre| > 0 {
      assert (pre + t)[1..] == pre[1..] + t;
      LeadingPadded(pre[1..], t);
    }
  }

  /** Trimmable characters after a text that ends with a kept character are
      exactly its trailing space. */
  lemma {:induction false} TrailingPadded(t: string, post: string)
    requires forall k :: 0 <= k < |post| ==> IsTrimmable(post[k])
    requires |t| > 0 && !IsTrimmable(t[|t| - 1])
    ensures TrailingSpace(t + post) == |post|
  {
    if |post| > 0 {
      assert (t + post)[..|t + post| - 1] == t + post[..|post| - 1];
      TrailingPadded(t, post[..|post| - 1]);
    }
  }

  /** `trim` removes exactly the white space padding a text whose own ends
      are kept characters. */
  lemma TrimPadded(pre: string, t: string, post: string)
    requires forall k :: 0 <= k < |pre| ==> IsTrimmable(pre[k])
    requires forall k :: 0 <= k < |post| ==> IsTrimmable(post[k])
    requires |t| > 0 && !IsTrimmable(t[0]) && !IsTrimmable(t[|t| - 1])
    ensures Trim(pre + t + post) == t
  {
    var s := pre + t + post;
    assert s == pre + (t + post);
    LeadingPadded(pre, t + post);
    assert s[|pre|..] == t + post;
    TrailingPadded(t, post);
  }

  /** `s.startsWith(prefix)`. */
  predicate StartsWith(s: string, prefix: string) {
    |prefix| <= |s| && s[..|prefix|] == prefix
  }

  /** `s.endsWith(suffix)`. */
  predicate EndsWith(s: string, suffix: string) {
    |suffix| <= |s| && s[|s| - |suffix|..] == suffix
  }

  /** `toLowerCase` on one character, for the ASCII letters. */
  function LowerChar(c: char): char {
    if 'A' <= c <= 'Z' then (c as int - 'A' as int + 'a' as int) as char else c
  }

  /** `s.toLowerCase()`, for the ASCII letters. */
  function Lower(s: string): (r: string)
    ensures |r| == |s|
    ensures forall i :: 0 <= i < |s| ==> r[i] == LowerChar(s[i])
  {
    seq(|s|, i requires 0 <= i < |s| => LowerChar(s[i]))
  }

  /** JavaScript truthiness of a possibly undefined string: present and non-empty. */
  predicate Truthy(s: Option<string>) {
    s.Some? && s.value != ""
  }

  /** The text a template literal gives a possibly undefined string. */
  function Render(s: Option<string>): (r: string)
    ensures s.Some? ==> r == s.value
    ensures s.None? ==> r == "undefined"
  {
    match s
    case Some(v) => v
    case None => "undefined"
  }
}

=== FILE: kaggle_api.dfy ===
/** The decision and shaping rules of the REST client in src/kaggleApi.ts.
    HTTP exchanges and file writes are not performed: their outcomes are
    inputs, and what would be sent or written is returned. */
module KaggleApi {
  import opened Outcomes
  import opened JsString
  import opened Tokens
  import CliCredentials

  /** A query parameter as axios serialises it. */
  datatype ParamValue = Num(n: int) | Text(s: string)
  datatype Param = Param(name: string, value: ParamValue)

  /** A GET request: endpoint path below `https://www.kaggle.com/api/v1` and
      query parameters in insertion order. */
  datatype Request = Request(path: string, params: seq<Param>)

  /** The names of a request's parameters, in order. */
  function ParamNames(params: seq<Param>): (names: seq<string>)
    ensures |names| == |params|
    ensures forall i :: 0 <= i < |params| ==> names[i] == params[i].name
  {
    if |params| == 0 then [] else [params[0].name] + ParamNames(params[1..])
  }

  /** A JavaScript default parameter: the default replaces only `undefined`. */
  function WithDefault(x: Option<int>, default: int): (v: int)
    ensures x.Some? ==> v == x.value
    ensures x.None? ==> v == default
  {
    x.GetOr(default)
  }

  /** `listMyKernels(page = 1, pageSize = 20)`. */
  function ListMyKernelsRequest(page: Option<int>, pageSize: Option<int>): (q: Request)
    ensures q.path == "/kernels/list"
    ensures ParamNames(q.params) == ["mine", "page", "pageSize"]
    ensures q.params[0].value == Text("true")
    ensures q.params[1].value == Num(if page.Some? then page.value else 1)
    ensures q.params[2].value == Num(if pageSize.Some? then pageSize.value else 20)
  {
    Request("/kernels/list", [
      Param("mine", Text("true")),
      Param("page", Num(WithDefault(page, 1))),
      Param("pageSize", Num(WithDefault(pageSize, 20)))])
  }

  /** `listDatasets(search?, page = 1, pageSize = 20)`: `page` and `pageSize`
      always, `search` only when it is non-empty. */
  function ListDatasetsRequest(search: Option<string>, page: Option<int>, pageSize: Option<int>): (q: Request)
    ensures q.path == "/datasets/list"
    ensures |q.params| >= 2 && ParamNames(q.params[..2]) == ["page", "pageSize"]
    ensures q.params[0].value == Num(if page.Some? then page.value else 1)
    ensures q.params[1].value == Num(if pageSize.Some? then pageSize.value else 20)
    ensures "search" in ParamNames(q.params) <==> Truthy(search)
    ensures Truthy(search) ==> q.params == q.params[..2] + [Param("search", Text(search.value))]
  {
    var base := [Param("page", Num(WithDefault(page, 1))), Param("pageSize", Num(WithDefault(pageSize, 20)))];
    var params := if Truthy(search) then base + [Param("search", Text(search.value))] else base;
    assert ParamNames(base) == ["page", "pageSize"];
    if Truthy(search) then
      assert ParamNames(params)[2] == "search";
      Request("/datasets/list", params)
    else
      assert ParamNames(params) == ["page", "pageSize"];
      Request("/datasets/list", params)
  }

  /** Basic authentication as axios sends it. */
  datatype BasicAuth = BasicAuth(username: string, password: string)

  /** `setCredentials`: the username is the Basic-auth user, the key its
      password. */
  function SetCredentials(c: Credentials): (auth: BasicAuth)
    ensures auth.username == c.username && auth.password == c.key
  {
    BasicAuth(c.username, c.key)
  }

  /** The credentials a Basic-auth header stands for. */
  function CredentialsOf(auth: BasicAuth): Credentials {
    Credentials(auth.username, auth.password)
  }

  /** The credentials in use can be read back from the client's auth, and
      distinct credentials give distinct auth. */
  lemma AuthRoundTrip(c: Credentials, d: Credentials)
    ensures CredentialsOf(SetCredentials(c)) == c
    ensures c != d ==> SetCredentials(c) != SetCredentials(d)
  {
  }

  /** `getKaggleCredentials`' result: properties copied from parsed JSON
      without a check, so either may be undefined. */
  datatype LooseCredentials = LooseCredentials(username: Option<string>, key: Option<string>)

  /** `getKaggleCredentials`: `KAGGLE_TOKEN_JSON` whenever it is non-empty
      and parses, otherwise the `kaggle.storedToken` configuration entry
      (whose read may throw) whenever it is non-empty and parses, otherwise
      `null`. Fields are copied as they are. */
  function GetKaggleCredentials(env: TokenSource, stored: Result<TokenSource>): (r: Option<LooseCredentials>)
    ensures Supplies(env) && env.json.Object? ==>
      r == Some(LooseCredentials(env.json.username, env.json.key))
    ensures !(Supplies(env) && env.json.Object?) && stored.Ok? && Supplies(stored.value) && stored.value.json.Object? ==>
      r == Some(LooseCredentials(stored.value.json.username, stored.value.json.key))
    ensures r.None? <==> !(Supplies(env) && env.json.Object?) && !(stored.Ok? && Supplies(stored.value) && stored.value.json.Object?)
  {
    if Supplies(env) && env.json.Object? then
      Some(LooseCredentials(env.json.username, env.json.key))
    else
      match stored
      case Err(_) => None
      case Ok(token) =>
        if Supplies(token) then
          match token.json
          case Malformed(_) => None
          case Object(u, k) => Some(LooseCredentials(u, k))
        else None
  }

  /** A `KAGGLE_TOKEN_JSON` of `{}` hides a good stored token from
      `getKaggleCredentials`, which then yields undefined fields. */
  lemma EmptyEnvTokenShadowsStored(username: string, key: string)
    requires username != "" && key != ""
    ensures GetKaggleCredentials(Present("{}", Object(None, None)), Ok(EncodedPair(username, key)))
      == Some(LooseCredentials(None, None))
  {
  }

  /** The two resolvers read `KAGGLE_TOKEN_JSON` differently. When the
      secret store yields nothing and the variable is consulted and parses,
      a token with both fields gives both resolvers the same pair; a token
      missing a field is still taken, fields as they are, by
      `getKaggleCredentials`, while `getKaggleCreds` passes over it as if the
      variable were unset. */
  lemma ResolversOnEnvToken(s: CliCredentials.Sources, stored: Result<TokenSource>)
    requires !Usable(s.secret) && Supplies(s.tokenJson) && s.tokenJson.json.Object?
    ensures Usable(s.tokenJson) ==> CliCredentials.GetKaggleCreds(s).Ok?
    ensures Usable(s.tokenJson) ==>
      var c := CliCredentials.GetKaggleCreds(s).value;
      GetKaggleCredentials(s.tokenJson, stored) == Some(LooseCredentials(Some(c.username), Some(c.key)))
    ensures !Usable(s.tokenJson) ==>
      GetKaggleCredentials(s.tokenJson, stored) == Some(LooseCredentials(s.tokenJson.json.username, s.tokenJson.json.key)) &&
      !(Truthy(s.tokenJson.json.username) && Truthy(s.tokenJson.json.key)) &&
      CliCredentials.GetKaggleCreds(s) == CliCredentials.GetKaggleCreds(s.(tokenJson := Absent))
  {
  }

  /** `path.join(dir, name)`; normalisation of `.`/`..` and repeated
      separators is not modelled. */
  function JoinPath(dir: string, name: string): (p: string)
    ensures StartsWith(p, dir) && EndsWith(p, name)
  {
    var p := dir + "/" + name;
    assert p[..|dir|] == dir;
    assert p[|p| - |name|..] == name;
    p
  }

  /** Within one directory, distinct names give distinct paths. */
  lemma JoinPathInjective(dir: string, a: string, b: string)
    ensures JoinPath(dir, a) == JoinPath(dir, b) <==> a == b
  {
    if JoinPath(dir, a) == JoinPath(dir, b) {
      assert a == JoinPath(dir, a)[|dir| + 1..];
      assert b == JoinPath(dir, b)[|dir| + 1..];
    }
  }

  /** A file the client would write: its path and its contents. */
  datatype FileWrite = FileWrite(path: string, contents: string)

  /** The source part of a `kernels/pull` response. */
  datatype Blob = Blob(name: Option<string>, source: string)

  /** A `kernels/pull` response body: the metadata (its JSON text) and an
      optional source blob. */
  datatype PullResponse = PullResponse(metadata: string, blob: Option<Blob>)

  const DefaultNotebookName := "notebook.ipynb"
  const MetadataFileName := "kernel-metadata.json"

  /** The file name a pulled blob is saved under: its own name, or
      `notebook.ipynb` when that is missing or empty. */
  function BlobFileName(b: Blob): (name: string)
    ensures Truthy(b.name) ==> name == b.name.value
    ensures !Truthy(b.name) ==> name == DefaultNotebookName
  {
    if Truthy(b.name) then b.name.value else DefaultNotebookName
  }

  /** What a path holds after a sequence of writes: the contents of the last
      write to it, if any. */
  function ContentAt(writes: seq<FileWrite>, path: string): (c: Option<string>)
    ensures c.None? <==> forall i :: 0 <= i < |writes| ==> writes[i].path != path
  {
    if |writes| == 0 then None
    else if writes[|writes| - 1].path == path then Some(writes[|writes| - 1].contents)
    else ContentAt(writes[..|writes| - 1], path)
  }

  /** `pullKernel`: the metadata always goes to `kernel-metadata.json`; the
      blob, if any, to a file named after it or `notebook.ipynb`. */
  function PullKernel(outputPath: string, response: Result<PullResponse>): (r: Result<seq<FileWrite>>)
    ensures response.Err? ==> r == Err(Thrown("Failed to pull kernel: " + response.thrown))
    ensures response.Ok? ==> r.Ok? && |r.value| == (if response.value.blob.Some? then 2 else 1)
    ensures response.Ok? ==> r.value[0] == FileWrite(JoinPath(outputPath, MetadataFileName), response.value.metadata)
    ensures response.Ok? && response.value.blob.Some? ==>
      var b := response.value.blob.value;
      r.value[1] == FileWrite(JoinPath(outputPath, if Truthy(b.name) then b.name.value else DefaultNotebookName), b.source)
  {
    match response
    case Err(e) => Err(Thrown("Failed to pull kernel: " + e))
    case Ok(data) =>
      var meta := FileWrite(JoinPath(outputPath, MetadataFileName), data.metadata);
      match data.blob
      case None => Ok([meta])
      case Some(b) =>
        Ok([meta, FileWrite(JoinPath(outputPath, BlobFileName(b)), b.source)])
  }

  /** After a pull the metadata file holds the metadata, unless the blob is
      itself named `kernel-metadata.json`: its write comes second and
      overwrites the metadata. The blob's file always holds its source. */
  lemma PullKernelFiles(outputPath: string, data: PullResponse)
    requires data.blob.Some?
    ensures var writes := PullKernel(outputPath, Ok(data)).value;
      var b := data.blob.value;
      && (JoinPath(outputPath, BlobFileName(b)) == JoinPath(outputPath, MetadataFileName) <==> BlobFileName(b) == MetadataFileName)
      && ContentAt(writes, JoinPath(outputPath, MetadataFileName)) ==
           Some(if BlobFileName(b) == MetadataFileName then b.source else data.metadata)
      && ContentAt(writes, JoinPath(outputPath, BlobFileName(b))) == Some(b.source)
  {
    var b := data.blob.value;
    JoinPathInjective(outputPath, BlobFileName(b), MetadataFileName);
    var writes := PullKernel(outputPath, Ok(data)).value;
    assert writes[..1] == [writes[0]];
  }

  /** The extensions `pushKernel` accepts as kernel source, compared
      case-sensitively. */
  predicate IsSourceFile(name: string) {
    EndsWith(name, ".ipynb") || EndsWith(name, ".py") || EndsWith(name, ".r") || EndsWith(name, ".rmd")
  }

  /** `readdirSync(kernelPath).filter(...)`: the source files of a
      directory listing, in listing order. */
  function SourceFiles(listing: seq<string>): (r: seq<string>)
    ensures |r| <= |listing|
  {
    if |listing| == 0 then []
    else if IsSourceFile(listing[0]) then [listing[0]] + SourceFiles(listing[1..])
    else SourceFiles(listing[1..])
  }

  /** The filter keeps exactly the listed names with a source extension, and
      the first name it keeps is the first such listed name. */
  lemma {:induction false} SourceFilesContents(listing: seq<string>)
    ensures forall i :: 0 <= i < |SourceFiles(listing)| ==> IsSourceFile(SourceFiles(listing)[i])
    ensures forall i :: 0 <= i < |listing| && IsSourceFile(listing[i]) ==> listing[i] in SourceFiles(listing)
    ensures forall x :: x in SourceFiles(listing) ==> x in listing
    ensures |SourceFiles(listing)| > 0 ==>
      exists i :: 0 <= i < |listing| && listing[i] == SourceFiles(listing)[0] && forall j :: 0 <= j < i ==> !IsSourceFile(listing[j])
  {
    if |listing| > 0 {
      var tail := listing[1..];
      var rest := SourceFiles(tail);
      SourceFilesContents(tail);
      forall i | 0 <= i < |listing| && IsSourceFile(listing[i]) ensures listing[i] in SourceFiles(listing) {
        if i > 0 { assert listing[i] == tail[i - 1]; }
      }
      if !IsSourceFile(listing[0]) && |rest| > 0 {
        var i :| 0 <= i < |tail| && tail[i] == rest[0] && forall j :: 0 <= j < i ==> !IsSourceFile(tail[j]);
        assert listing[i + 1] == rest[0];
        forall j | 0 <= j < i + 1 ensures !IsSourceFile(listing[j]) {
          if j > 0 { assert listing[j] == tail[j - 1]; }
        }
      }
    }
  }

  /** The filter keeps a single name exactly when it has a source extension. */
  lemma SourceFilesSingle(name: string)
    ensures SourceFiles([name]) == if IsSourceFile(name) then [name] else []
  {
    assert [name][1..] == [];
  }

  /** The filter works name by name: filtering a listing split in two is
      filtering each part and concatenating, so the result is the listing's
      source files in listing order, repeats included. */
  lemma {:induction false} SourceFilesAppend(a: seq<string>, b: seq<string>)
    ensures SourceFiles(a + b) == SourceFiles(a) + SourceFiles(b)
  {
    if |a| == 0 {
      assert a + b == b;
    } else {
      var ab := a + b;
      assert ab[0] == a[0] && ab[1..] == a[1..] + b;
      var kept := if IsSourceFile(a[0]) then [a[0]] else [];
      SourceFilesAppend(a[1..], b);
      SourceFilesCons(ab);
      SourceFilesCons(a);
      assert kept + (SourceFiles(a[1..]) + SourceFiles(b)) == (kept + SourceFiles(a[1..])) + SourceFiles(b);
    }
  }

  /** One filtering step: the head is kept exactly when it is a source file. */
  lemma SourceFilesCons(xs: seq<string>)
    requires |xs| > 0
    ensures SourceFiles(xs) == (if IsSourceFile(xs[0]) then [xs[0]] else []) + SourceFiles(xs[1..])
  {
  }

  /** The metadata file of a kernel directory: missing, unparsable (the
      rendering of the parse error), or its JSON text. */
  datatype Metadata = NotFound | Unparsable(thrown: string) | Parsed(json: string)

  /** What `pushKernel` uploads and what the server answered: the metadata
      text, the chosen source file's name and path, and the response body. */
  datatype Pushed = Pushed(text: string, sourceFile: string, sourcePath: string, run: string)

  const PushFailure := "Failed to push kernel: "

  /** `pushKernel`: fail before any upload when the metadata file is
      missing or does not parse, or when no listed file has a source
      extension; otherwise upload the first listed source file. */
  function PushKernel(kernelPath: string, metadata: Metadata, listing: seq<string>, upload: Result<string>): (r: Result<Pushed>)
    ensures metadata.NotFound? ==> r == Err(Thrown(PushFailure + Thrown("kernel-metadata.json not found")))
    ensures metadata.Unparsable? ==> r == Err(Thrown(PushFailure + metadata.thrown))
    ensures metadata.Parsed? && (forall i :: 0 <= i < |listing| ==> !IsSourceFile(listing[i])) ==>
      r == Err(Thrown(PushFailure + Thrown("No source file found")))
    ensures r.Ok? ==> metadata.Parsed? && upload.Ok? && r.value.text == metadata.json && r.value.run == upload.value
    ensures r.Ok? ==> IsSourceFile(r.value.sourceFile) && r.value.sourcePath == JoinPath(kernelPath, r.value.sourceFile)
    ensures r.Ok? ==>
      exists i :: 0 <= i < |listing| && listing[i] == r.value.sourceFile && forall j :: 0 <= j < i ==> !IsSourceFile(listing[j])
    ensures metadata.Parsed? && (exists i :: 0 <= i < |listing| && IsSourceFile(listing[i])) && upload.Err? ==>
      r == Err(Thrown(PushFailure + upload.thrown))
    ensures metadata.Parsed? && (exists i :: 0 <= i < |listing| && IsSourceFile(listing[i])) && upload.Ok? ==> r.Ok?
  {
    match metadata
    case NotFound => Err(Thrown(PushFailure + Thrown("kernel-metadata.json not found")))
    case Unparsable(e) => Err(Thrown(PushFailure + e))
    case Parsed(text) =>
      var sources := SourceFiles(listing);
      SourceFilesContents(listing);
      if |sources| == 0 then
        Err(Thrown(PushFailure + Thrown("No source file found")))
      else
        match upload
        case Err(e) => Err(Thrown(PushFailure + e))
        case Ok(run) => Ok(Pushed(text, sources[0], JoinPath(kernelPath, sources[0]), run))
  }

  /** `downloadDataset` saves the archive as `<slug>.zip`; an undefined slug
      is rendered as `undefined`. */
  function DatasetArchivePath(outputPath: string, datasetSlug: Option<string>): (p: string)
    ensures p == JoinPath(outputPath, Render(datasetSlug) + ".zip")
    ensures EndsWith(p, Render(datasetSlug) + ".zip") && StartsWith(p, outputPath)
  {
    JoinPath(outputPath, Render(datasetSlug) + ".zip")
  }

  /** Two datasets' archives in one directory share a path exactly when
      their slugs render alike. */
  lemma ArchivePathsDistinct(outputPath: string, a: Option<string>, b: Option<string>)
    ensures DatasetArchivePath(outputPath, a) == DatasetArchivePath(outputPath, b) <==> Render(a) == Render(b)
  {
    JoinPathInjective(outputPath, Render(a) + ".zip", Render(b) + ".zip");
    if Render(a) + ".zip" == Render(b) + ".zip" {
      assert Render(a) == (Render(a) + ".zip")[..|Render(a)|];
      assert Render(b) == (Render(b) + ".zip")[..|Render(b)|];
    }
  }

  /** `getKernelOutput` saves the output archive as `output.zip`. */
  function KernelOutputPath(outputPath: string): (p: string)
    ensures p == JoinPath(outputPath, "output.zip")
    ensures EndsWith(p, "output.zip") && StartsWith(p, outputPath)
  {
    JoinPath(outputPath, "output.zip")
  }

  /** How one file's download went: saved, or what it threw. */
  datatype Transfer = Saved | Broke(thrown: string)

  const FilesFailure := "Failed to download dataset files: "

  /** `downloadDatasetFiles`: fetch the file list, then download the files
      one after another in listing order. Returns the paths written and,
      separately, the files left on disk: on the first failing download the
      call fails and the files before it stay written. */
  method DownloadDatasetFiles(outputPath: string, listing: Result<seq<string>>, transfers: seq<Transfer>)
    returns (r: Result<seq<string>>, written: seq<string>)
    requires listing.Ok? ==> |transfers| == |listing.value|
    ensures listing.Err? ==> r == Err(Thrown(FilesFailure + listing.thrown)) && written == []
    ensures listing.Ok? ==> |written| <= |listing.value|
    ensures listing.Ok? ==> forall i :: 0 <= i < |written| ==>
      written[i] == JoinPath(outputPath, listing.value[i]) && transfers[i].Saved?
    ensures r.Ok? <==> listing.Ok? && forall i :: 0 <= i < |transfers| ==> transfers[i].Saved?
    ensures r.Ok? ==> r.value == written && |written| == |listing.value|
    ensures listing.Ok? && r.Err? ==>
      |written| < |transfers| && transfers[|written|].Broke? && r.thrown == Thrown(FilesFailure + transfers[|written|].thrown)
  {
    written := [];
    if listing.Err? {
      return Err(Thrown(FilesFailure + listing.thrown)), written;
    }
    var names := listing.value;
    var i := 0;
    while i < |names|
      invariant 0 <= i <= |names|
      invariant |written| == i
      invariant forall j :: 0 <= j < i ==> written[j] == JoinPath(outputPath, names[j]) && transfers[j].Saved?
    {
      if transfers[i].Broke? {
        return Err(Thrown(FilesFailure + transfers[i].thrown)), written;
      }
      written := written + [JoinPath(outputPath, names[i])];
      i := i + 1;
    }
    r := Ok(written);
  }
}

=== FILE: my_notebooks_provider.dfy ===
/** `MyNotebooksProvider.getChildren` in src/tree/myNotebooksProvider.ts:
    the notebook tree lists the signed-in user's kernels. */
module MyNotebooksProvider {
  import opened Outcomes
  import opened JsString
  import opened Records

  /** A tree entry, each property copied from the kernel object. */
  datatype KernelItem = KernelItem(id: Option<string>, title: Option<string>, author: Option<string>, url: Option<string>)

  /** `getChildren`: nothing when there is no signed-in user or the listing
      failed, otherwise one entry per kernel in listing order. */
  function GetChildren(username: Option<string>, listing: Result<seq<Record>>): (items: seq<KernelItem>)
    ensures !Truthy(username) || listing.Err? ==> items == []
    ensures Truthy(username) && listing.Ok? ==> |items| == |listing.value|
    ensures Truthy(username) && listing.Ok? ==> forall i :: 0 <= i < |items| ==>
      var k := listing.value[i];
      items[i] == KernelItem(Get(k, "id"), Get(k, "title"), Get(k, "author"), Get(k, "url"))
  {
    var user := if username.Some? then Some(Lower(username.value)) else None;
    if !Truthy(user) then []
    else
      match listing
      case Err(_) => []
      case Ok(kernels) =>
        seq(|kernels|, i requires 0 <= i < |kernels| =>
          KernelItem(Get(kernels[i], "id"), Get(kernels[i], "title"), Get(kernels[i], "author"), Get(kernels[i], "url")))
  }

  /** Without a user the listing is not consulted: any listing gives the
      same (empty) tree. */
  lemma NoUserNoListing(username: Option<string>, a: Result<seq<Record>>, b: Result<seq<Record>>)
    requires !Truthy(username)
    ensures GetChildren(username, a) == GetChildren(username, b) == []
  {
  }

  /** A kernel object holding exactly the four shown properties is shown
      with exactly those values. */
  lemma ProjectionKeepsFields(username: Option<string>, id: string, title: string, author: string, url: string)
    requires Truthy(username)
    ensures GetChildren(username, Ok([[Field("id", id), Field("title", title), Field("author", author), Field("url", url)]]))
      == [KernelItem(Some(id), Some(title), Some(author), Some(url))]
  {
    var k := [Field("id", id), Field("title", title), Field("author", author), Field("url", url)];
    assert k[1..] == [Field("title", title), Field("author", author), Field("url", url)];
    assert k[1..][1..] == [Field("author", author), Field("url", url)];
    assert k[1..][1..][1..] == [Field("url", url)];
    assert Get(k, "id") == Some(id);
    assert Get(k, "title") == Some(title);
    assert Get(k[1..][1..], "author") == Some(author);
    assert Get(k[1..], "author") == Some(author);
    assert Get(k, "author") == Some(author);
    assert Get(k[1..][1..][1..], "url") == Some(url);
    assert Get(k[1..][1..], "url") == Some(url);
    assert Get(k[1..], "url") == Some(url);
    assert Get(k, "url") == Some(url);
  }
}

=== FILE: outcomes.dfy ===
/** Failure-carrying values shared by every module of the model.

    The extension signals failure by throwing; the model returns `Err` instead.
    An error is represented by the text JavaScript would render for the thrown
    value (`${error}`), because that rendering is what every caller in the
    extension either rethrows, wraps or prints. */
module Outcomes {

  /** `undefined` versus a present value. */
  datatype Option<+T> = None | Some(value: T) {
    function GetOr(default: T): T {
      match this
      case Some(v) => v
      case None => default
    }
  }

  /** A completed call: its value, or the rendering of what it threw. */
  datatype Result<+T> = Ok(value: T) | Err(thrown: string)

  /** The rendering of `new Error(message)`: its name, a colon, the message. */
  function Thrown(message: string): (r: string)
    ensures |r| == |message| + 7 && r[7..] == message
  {
    "Error: " + message
  }
}

=== FILE: records.dfy ===
/** A listed item as the extension holds it: a plain JavaScript object whose
    properties are strings, kept in insertion order. */
module Records {
  import opened Outcomes

  datatype Field = Field(name: string, value: string)

  /** An object: its properties in insertion order. */
  type Record = seq<Field>

  /** The property names of a record. */
  function Names(rec: Record): set<string> {
    if |rec| == 0 then {} else {rec[0].name} + Names(rec[1..])
  }

  /** No property name occurs twice, as in every JavaScript object. */
  predicate DistinctNames(rec: Record) {
    forall i, j :: 0 <= i < j < |rec| ==> rec[i].name != rec[j].name
  }

  /** `rec[name]`: the value of the first property called `name`, or
      `undefined`. */
  function Get(rec: Record, name: string): (r: Option<string>)
    ensures r.None? <==> name !in Names(rec)
  {
    if |rec| == 0 then None
    else if rec[0].name == name then Some(rec[0].value)
    else
      NamesCons(rec);
      Get(rec[1..], name)
  }

  /** A present property reads as the value of its first occurrence. */
  lemma {:induction false} GetFirst(rec: Record, name: string) returns (i: nat)
    requires name in Names(rec)
    ensures i < |rec| && rec[i].name == name && Get(rec, name) == Some(rec[i].value)
    ensures forall j :: 0 <= j < i ==> rec[j].name != name
  {
    if rec[0].name == name {
      i := 0;
    } else {
      var k := GetFirst(rec[1..], name);
      i := k + 1;
      assert rec[i] == rec[1..][k];
      forall j | 0 <= j < i ensures rec[j].name != name {
        if j > 0 { assert rec[j] == rec[1..][j - 1]; }
      }
    }
  }

  /** `rec[name] = value`: an existing property keeps its position and takes
      the new value; a new one is appended. */
  function Assign(rec: Record, name: string, value: string): (r: Record)
    ensures Names(r) == Names(rec) + {name}
    ensures name !in Names(rec) ==> r == rec + [Field(name, value)]
    ensures name in Names(rec) ==> |r| == |rec| && forall i :: 0 <= i < |rec| ==> r[i].name == rec[i].name
    ensures forall i :: 0 <= i < |r| && i < |rec| && rec[i].name != name ==> r[i] == rec[i]
  {
    if |rec| == 0 then
      var r := [Field(name, value)];
      NamesCons(r);
      assert r[1..] == [];
      r
    else
      NamesCons(rec);
      if rec[0].name == name then
        var r := [Field(name, value)] + rec[1..];
        NamesCons(r);
        assert r[1..] == rec[1..];
        r
      else
        var r := [rec[0]] + Assign(rec[1..], name, value);
        NamesCons(r);
        assert r[1..] == Assign(rec[1..], name, value);
        r
  }

  /** After an assignment the property reads back the assigned value and
      every other property reads as before. */
  lemma {:induction false} AssignGet(rec: Record, name: string, value: string, other: string)
    ensures Get(Assign(rec, name, value), name) == Some(value)
    ensures other != name ==> Get(Assign(rec, name, value), other) == Get(rec, other)
  {
    if |rec| > 0 && rec[0].name != name {
      AssignGet(rec[1..], name, value, other);
      var r := Assign(rec, name, value);
      assert r[1..] == Assign(rec[1..], name, value);
    }
  }

  /** One assignment step: if `name` read `before` ahead of it, it reads the
      assigned value when the step names it and `before` otherwise. */
  lemma AssignStep(rec: Record, prev: Record, key: string, value: string, name: string, after: Option<string>, before: Option<string>)
    requires rec == Assign(prev, key, value)
    requires Get(prev, name) == before
    requires after == if key == name then Some(value) else before
    ensures Get(rec, name) == after
  {
    AssignGet(prev, key, value, name);
  }

  /** Assignment keeps property names distinct. */
  lemma {:induction false} AssignDistinct(rec: Record, name: string, value: string)
    requires DistinctNames(rec)
    ensures DistinctNames(Assign(rec, name, value))
  {
    if |rec| > 0 {
      NamesCons(rec);
      var r := Assign(rec, name, value);
      if rec[0].name == name {
        assert r[1..] == rec[1..];
        forall i, j | 0 <= i < j < |r| ensures r[i].name != r[j].name {
          if i > 0 { assert r[i] == rec[i] && r[j] == rec[j]; }
          else { assert r[j] == rec[j]; }
        }
      } else {
        var tail := Assign(rec[1..], name, value);
        AssignDistinct(rec[1..], name, value);
        assert r == [rec[0]] + tail;
        assert rec[0].name !in Names(rec[1..]) by {
          if rec[0].name in Names(rec[1..]) {
            var k := NameIndex(rec[1..], rec[0].name);
          }
        }
        assert Names(tail) == Names(rec[1..]) + {name};
        forall i, j | 0 <= i < j < |r| ensures r[i].name != r[j].name {
          if i > 0 {
            assert r[i] == tail[i - 1] && r[j] == tail[j - 1];
          } else {
            assert r[j] == tail[j - 1];
            NameAt(tail, j - 1);
          }
        }
      }
    }
  }

  /** In a record with distinct names, every property reads back its own value. */
  lemma DistinctGet(rec: Record, f: nat)
    requires f < |rec| && DistinctNames(rec)
    ensures Get(rec, rec[f].name) == Some(rec[f].value)
  {
    NameAt(rec, f);
    var i := GetFirst(rec, rec[f].name);
    assert i == f;
  }

  /** The names of a non-empty record: its first name and the rest's. */
  lemma NamesCons(rec: Record)
    requires |rec| > 0
    ensures Names(rec) == {rec[0].name} + Names(rec[1..])
  {
  }

  /** Every property's name is among the record's names. */
  lemma {:induction false} NameAt(rec: Record, i: nat)
    requires i < |rec|
    ensures rec[i].name in Names(rec)
  {
    if i > 0 {
      NameAt(rec[1..], i - 1);
      assert rec[1..][i - 1] == rec[i];
    }
  }

  /** Every name among the record's names belongs to some property. */
  lemma {:induction false} NameIndex(rec: Record, name: string) returns (i: nat)
    requires name in Names(rec)
    ensures i < |rec| && rec[i].name == name
  {
    if rec[0].name == name {
      i := 0;
    } else {
      var j := NameIndex(rec[1..], name);
      assert rec[j + 1] == rec[1..][j];
      i := j + 1;
    }
  }
}

=== FILE: tokens.dfy ===
/** Kaggle API tokens and the places they are read from.

    JSON parsing is not modelled: a source carries its raw text together with
    what `JSON.parse` makes of it. */
module Tokens {
  import opened Outcomes
  import opened JsString

  /** A resolved `{username, key}` pair. */
  datatype Credentials = Credentials(username: string, key: string)

  /** The outcome of `JSON.parse` on a token text: it threw (the rendering
      of the thrown error; a text that parses to `null` counts here too, since
      reading a property of `null` throws), or it produced a value whose
      `username` and `key` properties may be undefined. */
  datatype Json = Malformed(thrown: string) | Object(username: Option<string>, key: Option<string>)

  /** A string-valued token source (secret store, environment variable,
      configuration entry or file): undefined, or its text and its parse. */
  datatype TokenSource = Absent | Present(raw: string, json: Json)

  /** The source is consulted at all: its text is defined and non-empty. */
  predicate Supplies(src: TokenSource) {
    src.Present? && src.raw != ""
  }

  /** The source is consulted, parses, and has truthy `username` and `key`. */
  predicate Usable(src: TokenSource) {
    Supplies(src) && src.json.Object? && Truthy(src.json.username) && Truthy(src.json.key)
  }

  /** The pair a usable source holds. */
  function PairOf(src: TokenSource): (c: Credentials)
    requires Usable(src)
    ensures c.username != "" && c.key != ""
  {
    Credentials(src.json.username.value, src.json.key.value)
  }

  /** `JSON.stringify({username, key})`; string escaping is not modelled. */
  function StringifyPair(username: string, key: string): (text: string)
    ensures text != "" && text[0] == '{'
  {
    "{\"username\":\"" + username + "\",\"key\":\"" + key + "\"}"
  }

  /** The token text and parse that `JSON.stringify({username, key})`
      produces and `JSON.parse` reads back. */
  function EncodedPair(username: string, key: string): (src: TokenSource)
    ensures username != "" && key != "" ==> Usable(src) && PairOf(src) == Credentials(username, key)
  {
    Present(StringifyPair(username, key), Object(Some(username), Some(key)))
  }
}
